=== FILE: README.md ===
# Appointment scheduling in e-hospitality, modelled in Dafny

This project models the appointment-scheduling core of the e-hospitality
Django application:

- **Weekly availability.** A doctor's availability rows are (day code, start, end).
  - The admin's doctor-edit form replaces them wholesale.
  - The doctor's profile update merges them day by day.
- **Free-slot query.** It walks a doctor's window for the weekday of a date in 30-minute steps. It drops:
  - the trailing partial slot;
  - the booked starts;
  - on the current date, the times already past.
- **Booking.**
  - The booking form validates the doctor, date and time.
  - The booking view gets or creates the time slot, with its end 30 minutes later on the clock, and books it unless the slot already holds a booked appointment.
  - Direct booking books an existing slot by its key.
  - A patient can pay a bill.
- **Listings.** These are the doctor's full, today's and upcoming appointment lists and the dashboard counts, the patient's upcoming and past lists, and the list of all doctors' slots.
- **Completion.** The doctor completes today's appointment with a diagnosis note and a prescription.
- **Small pure rules.** These are the role gate in front of every view, the patient's age, and the record defaults and choice sets of the models.

How the model represents the application:

- **The database** is one immutable value `Store.Db`.
  - The availability table is a set, because the table is unique on all four of its fields.
  - Every other table is a sequence in primary-key order, with a next-key counter.
- **Each view** is a pure function from a store and a request to an outcome. The outcome carries the resulting store. An uncaught exception is an outcome that carries the writes made before it, as Django's autocommit leaves them.
- **Django's `.get()`** has three outcomes: no row, one row, several rows (`Base.Lookup`). The several-rows case is an uncaught `MultipleObjectsReturned` wherever the source does not catch it.
- **Times of day** are minutes since midnight (`Calendar.Time`).
- **Dates** are valid proleptic-Gregorian dates, with the weekday computed as Python's `date.weekday()` does.
- **The current date and time** are parameters. "Now" is taken rounded up to the whole minute and clamped at 23:59. Rounding makes the comparison `slot < now` exact on minute-valued slots. The clamp changes nothing, because no offered start is later than 23:29.
- **The last date** the host language can represent is 9999-12-31. Adding 30 minutes to a time of 23:30 or later on that date raises an overflow error (`Calendar.AddOverflows`). The model raises it in the free-slot walk and in the booking view, where the source does.

Three behaviours of the application are worth stating up front:

- **Past dates.** The booking form does not reject a date before today, and the model keeps that. Only the free-slot query refuses past dates, so `Booking.CleanBooking` accepts them.
- **Direct booking.** It does not stop a second patient from booking a slot that is already booked (see Findings).
- **Absent operations.** The application has no code for editing or cancelling bookings, invoices, consultation fees or a no-show sweep; none is modelled.

## Model

| member | source | states |
|---|---|---|
| Accounts.RoleRequired | accounts/utils.py:3-11 | the wrapped view answers, with its own response unchanged, exactly when the user is signed in and holds the required role; otherwise the answer is the fixed forbidden message |
| Accounts.ForbiddenIgnoresView | accounts/utils.py:6-9 | when access is refused the wrapped view is never consulted: any two views give the same forbidden answer |
| Accounts.AnonymousForbidden | accounts/utils.py:6-9 | an unauthenticated visitor is forbidden whatever role is required |
| Accounts.WrongRoleForbidden | accounts/utils.py:8-9 | a signed-in user whose role differs from the required one is forbidden |
| DoctorModels.FromCode | doctors/models.py:76-84 | reading a stored day code back yields a day only for one of the seven codes, and that day's code is the string read |
| DoctorModels.CodesRoundTrip | doctors/models.py:76-91 | every day's code is at most three characters, reads back as that day, and no two days share a code |
| DoctorModels.AllDaysAreSeven | doctors/models.py:76-84 | there are exactly seven day choices and every day is one of them |
| DoctorModels.DayOf | patients/views.py:171 | the day code of a date is the day whose position in the week, Monday first, is the date's weekday |
| DoctorModels.DayOfExample | patients/forms.py:63 | 2026-10-11 is a Sunday and 2024-02-29 a Thursday |
| DoctorModels.CodeBeforeIsRank | doctors/models.py:99 | the table's default order by the day-code string is alphabetical (fri, mon, sat, sun, thu, tue, wed), not the order of the week: Friday sorts before Monday |
| DoctorModels.CodeOrderIsRank | doctors/models.py:99 | for every pair of days, the default order by day-code string agrees with the alphabetical rank of the codes |
| DoctorModels.NewPrescription | doctors/models.py:65 | a new prescription has status "Pending" and keeps the given patient, doctor, medication, dosage and instructions |
| PatientModels.StatusFromCode | patients/models.py:46-50 | a stored status string reads back only as one of booked, cancelled, completed, and that status's code is the string read |
| PatientModels.StatusCodesRoundTrip | patients/models.py:46-51 | each status has a distinct code of at most 10 characters that reads back as that status |
| PatientModels.NewAppointment | patients/models.py:51 | a new appointment is booked and keeps the given key, patient, doctor, slot and symptoms |
| PatientModels.NewBilling | patients/models.py:82 | a new bill starts unpaid and keeps the given fields |
| Calendar.ClockAdd | patients/views.py:223 | adding minutes to a time of day wraps modulo 24 hours: the result differs from the plain sum by a whole number of days, equals it below midnight, and is one day less just past it |
| Calendar.OrdinalOrdersDates | patients/views.py:166 | chronological order of dates is the order of their day numbers, and equal day numbers mean equal dates |
| Store.SlotById | patients/views.py:276 | the slot looked up by key is in the table with that key; no slot means no row has that key |
| Store.SlotsAt | patients/forms.py:77-81 | exactly the slots of the doctor on the date starting at the time, whatever their end, each as often as the table holds it, so "several slots" means several matching rows |
| Store.DeleteSlot | patients/models.py:44 | deleting a slot removes exactly that slot and exactly the appointments on it, and no other table changes |
| Store.DeleteSlotKeepsWellFormed | patients/models.py:44 | the cascade leaves no appointment pointing at a missing slot, and keys stay ordered and slots unique |
| WeeklyAvailability.WindowsFor | doctors/models.py:96 | exactly the doctor's rows for the day; the model admits several, as the uniqueness constraint on all four fields does |
| WeeklyAvailability.Window | patients/views.py:172-173 | the single-row lookup finds nothing exactly when the doctor has no row for the day, finds the row exactly when there is one, and fails exactly when there are several |
| WeeklyAvailability.DaysOf | doctors/views.py:371 | a day is among the doctor's days exactly when some row of the doctor is for that day |
| WeeklyAvailability.FieldFor | admins/forms.py:242-250 | the checkbox for a day maps back to that day |
| WeeklyAvailability.FieldMapIsBijection | admins/forms.py:242-250 | the checkbox-to-day-code map is a bijection between the seven checkboxes and the seven codes, and checkbox names are distinct |
| WeeklyAvailability.CleanEdit | admins/forms.py:194-219 | the form is rejected for missing times exactly when a day is checked and a time is missing, and otherwise for bad hours exactly when both times are given with start not before end |
| WeeklyAvailability.SelectedDays | admins/forms.py:255-258 | a day is selected exactly when its checkbox is checked |
| WeeklyAvailability.SaveAvailability | admins/forms.py:251-276 | after saving, the doctor has exactly one row per checked day with the submitted hours (none at all when a time is missing), no row for unchecked days, and other doctors' rows are unchanged |
| WeeklyAvailability.SaveIsIdempotent | admins/forms.py:262-276 | saving the same form twice leaves the same rows as saving it once |
| WeeklyAvailability.ValidSaveMakesWindows | admins/forms.py:208-276 | after a save the form accepted, every row of the doctor starts before it ends |
| WeeklyAvailability.InitialChecks | admins/forms.py:166-178 | a checkbox is prechecked exactly when the doctor has a row for its day |
| WeeklyAvailability.PrepopulateThenSaveKeepsDays | admins/forms.py:166-276 | saving the prepopulated checkboxes with any hours gives the doctor exactly the days they had before |
| WeeklyAvailability.ResubmitReproducesRows | admins/forms.py:166-276 | when all of the doctor's rows share one pair of hours, resubmitting the prepopulated form with those hours leaves the rows as they were |
| WeeklyAvailability.SaveThenPrepopulate | admins/forms.py:166-187 | after a save with times, the form prepopulates with the checked days and, if any were checked, with the submitted hours |
| WeeklyAvailability.InitialTimes | admins/forms.py:183-187 | the hours the form may start with are those of a row of the doctor whose day code comes first in the default order (no row of the doctor has a smaller code rank), and there are none when the doctor has no rows |
| WeeklyAvailability.FirstByCode | admins/forms.py:183-187 | whenever the doctor has a row, some row of theirs comes first in the default day-code order, and its hours are among those the form starts with |
| WeeklyAvailability.UpdateOrCreate | doctors/views.py:374-378 | update-or-create fails, leaving the rows untouched, exactly when the day already has several rows; otherwise the day holds exactly the submitted hours and every other day and doctor is unchanged |
| WeeklyAvailability.UpdateEach | doctors/views.py:373-378 | the update-or-create loop fails only with several rows for a day; it leaves other doctors' rows alone, and it adds or removes rows only of the doctor on submitted days |
| WeeklyAvailability.UpdateEachEffect | doctors/views.py:373-378 | the loop over submitted days fails exactly when some submitted day had several rows; on success each submitted day holds exactly the submitted hours and other doctors are untouched |
| WeeklyAvailability.ProfileMerge | doctors/views.py:365-378 | the profile update fails only with several rows for a day; other doctors' rows are unchanged; even when the loop fails, the doctor has no row left on a day that was not submitted |
| WeeklyAvailability.ProfileMergeEffect | doctors/views.py:365-378 | the profile update succeeds exactly when no submitted day had several rows; then the doctor's days are exactly the submitted days, each with exactly the submitted hours, and other doctors' rows are unchanged |
| SlotGenerator.BookedStarts | patients/views.py:183-188 | a start is booked exactly when an appointment of the doctor with status booked sits on a slot on that date starting then; cancelled and completed ones do not count |
| SlotGenerator.Walk | patients/views.py:190-203 | the walk's starts all fit, slot included, within the window and are strictly increasing |
| SlotGenerator.WalkOffersExactly | patients/views.py:190-203 | a start is offered exactly when its whole slot fits in the window, it lies on the 30-minute grid from the window's start, it is not booked and it is not too early |
| SlotGenerator.WalkStop | patients/views.py:191-203 | the walk stops at the first 30-minute step from the window's start whose slot no longer fits before the window's end; when a slot fits at the start, the stop is not later than the end |
| SlotGenerator.WalkStopIsFirstMisfit | patients/views.py:191-203 | every grid step before the stop still fits a whole slot |
| SlotGenerator.NineToElevenExample | patients/views.py:191-203 | a 09:00-11:00 window with nothing booked offers 09:00, 09:30, 10:00 and 10:30 |
| SlotGenerator.Earliest | patients/views.py:195-198 | a start falls below the threshold exactly when the loop's test skips it as past (the date is the current date and the start is before the current time); the threshold is the current time on the current date and midnight otherwise |
| SlotGenerator.AvailableSlots | patients/views.py:153-205 | the list is empty when the doctor or date is missing, the date is malformed or before today, the requested doctor id does not name a doctor, or there is no window for the weekday; the lookup fails exactly when the doctor has several windows for that weekday; the query overflows exactly when the doctor's one window has its walk stop within 30 minutes of midnight on the last representable date; the list is strictly increasing |
| SlotGenerator.AvailableSlotsOffers | patients/views.py:176-203 | with one window for the weekday, the query answers with a list exactly when the walk does not overflow, and then a start is offered exactly when it is on the grid, its slot fits, it is not booked, and on the current date it is not before now |
| SlotGenerator.LastDateQueryOverflows | patients/views.py:191 | only the last representable date can overflow; a Friday 23:00-23:59 window offers 23:00 on 9999-12-24 but fails with an overflow error on 9999-12-31 |
| Booking.CleanBooking | patients/forms.py:51-88 | no check runs unless doctor, date and time are all given; the time is refused as unavailable exactly when the doctor has no window for the weekday and as outside hours exactly when it is not in [start, end); the form raises exactly when the doctor has several windows for the weekday, or the time lies in the one window and several slots start then; an accepted time lies in some window; a conflict refusal means an existing slot at that start holds a booked appointment |
| Booking.ConflictCheck | patients/forms.py:76-86 | a missing slot never causes a conflict; a single existing slot causes one exactly when it holds a booked appointment |
| Booking.GetOrCreateSlot | patients/views.py:223-229 | the booking reuses the one slot at (doctor, date, start), creates one ending 30 minutes later on the clock (modulo 24 hours) under the next key when there is none, and fails when there are several |
| Booking.AddAppointment | patients/views.py:237-243 | exactly one booked appointment is appended under the next key, and nothing else changes |
| Booking.CreateBooking | patients/views.py:222-243 | the booking fails, leaving the store unchanged, exactly when the slot's end overflows on the last date or several slots match; it is refused exactly when the slot it gets or creates already holds a booked appointment, and then no appointment is added and the appointment key counter is unchanged; whether it is refused or succeeds, the slot table and its key counter are unchanged when a slot existed and grow by exactly the new slot otherwise; in every other case exactly one booked appointment for the patient, doctor and symptoms is added on a slot at that date and start, a slot is created only when none existed, and nothing else changes |
| Booking.BookAppointmentForm | patients/views.py:213-243 | a form refusal or failure leaves the store unchanged; an accepted form proceeds to the booking, which in a well-formed store succeeds exactly when the slot's end does not overflow |
| Booking.BookingAfterCleanSucceeds | patients/views.py:223-234 | once the form has accepted a time, the view's own double-booking check cannot refuse it within the same request: in a well-formed store the booking succeeds exactly when the slot's end does not overflow |
| Booking.AddSlotKeepsInvariants | patients/models.py:22 | adding a slot with a (doctor, date, start) no slot has keeps slots unique, keys ordered and foreign keys valid, and the new slot is free |
| Booking.AddAppointmentKeepsInvariants | patients/views.py:237-243 | booking a free slot for its own doctor keeps the store well formed, keeps appointments with their slot's doctor, and keeps at most one booked appointment per slot |
| Booking.CreateBookingKeepsInvariants | patients/views.py:222-243 | the booking view keeps the store well formed, keeps appointments with their slot's doctor, and never puts a second booked appointment on a slot |
| Booking.BookBySchedule | patients/views.py:275-289 | the view never fails; a missing slot is not found; a GET changes nothing; a POST is refused, changing nothing, exactly when this patient already holds a booked appointment on the slot, and otherwise succeeds by appending one booked appointment on the slot for the slot's doctor |
| Booking.DirectBookingDoubleBooks | patients/views.py:278-286 | a store where another patient already booked the slot lets direct booking succeed and ends with two booked appointments on one slot |
| Booking.BookByScheduleGuarded | patients/views.py:278-286 | corrected direct booking never fails: a POST is refused, changing nothing, exactly when the slot already holds a booked appointment, whoever holds it, and otherwise succeeds by appending one booked appointment on the slot |
| Booking.GuardedDirectBookingKeepsInvariants | patients/views.py:278-286 | the corrected direct booking keeps the store well formed and at most one booked appointment per slot |
| Booking.OfferedSlotPassesForm | patients/forms.py:63-83 | every start the free-slot query offers passes the form's weekday and working-hours checks, and, when appointments sit with their slot's doctor, the form accepts it unless its slot lookup fails |
| Booking.BookedTimeLeavesQuery | patients/views.py:183-200 | after a booking succeeds, the free-slot query for that doctor and date no longer offers the booked start |
| Booking.FormAcceptsWhatQueryDoesNotOffer | patients/forms.py:71-72 | the form accepts an off-grid time and a time in the trailing partial slot that the query never offers |
| Booking.FindBill | patients/views.py:104 | the bill found has the key and belongs to the patient; none found means the patient has no bill with that key |
| Booking.PayBill | patients/views.py:102-109 | another patient's or a missing bill is not found; a GET changes nothing; a POST marks exactly that bill paid and changes nothing else |
| Booking.PayBillIsIdempotent | patients/views.py:104-106 | paying twice leaves the store as paying once |
| Booking.FindBillFramed | patients/views.py:104-106 | marking a bill paid does not move where its key is found |
| Listings.SortBy | patients/models.py:25 | ordering by (date, start) yields an ascending permutation of the rows |
| Listings.JoinKeepsEvery | patients/models.py:44 | when every appointment's slot exists, joining appointments with their slots drops none |
| Listings.Listing | doctors/views.py:36-38 | each list holds exactly the joined appointments its filter selects (the doctor's; the doctor's dated today; the doctor's dated after today; the patient's booked ones from today on; the patient's dated before today), as a permutation of them in ascending (date, start) order, the patient's past list in descending order |
| Listings.TodayByStart | doctors/views.py:76-79 | today's list is ordered by start time |
| Listings.SelectCountsSplit | doctors/views.py:36-42 | today's and the upcoming selections together are no larger than the doctor's full selection |
| Listings.DashboardCounts | doctors/views.py:36-42 | the dashboard's today's count plus upcoming count never exceeds its count of all the doctor's appointments |
| Listings.PatientListsDisjoint | patients/views.py:51-56 | no appointment is on both the patient's upcoming and past lists |
| Listings.SelectDoctorSlots | patients/views.py:265-266 | the doctors' slots are selected each exactly as often as the table holds them, and no slot of a non-doctor |
| Listings.DoctorSchedules | patients/views.py:264-267 | the schedule list holds each slot whose owner is a doctor exactly as often as the table does, no other slot, in ascending (date, start) order |
| Consultation.FindAppointment | doctors/views.py:438 | the appointment found has the key and belongs to the doctor; none found means the doctor has no appointment with that key |
| Consultation.MedicationsNamed | doctors/views.py:467 | exactly the medications with the name, each as often as the table holds it |
| Consultation.GetOrCreateMedication | doctors/views.py:467 | the medication with the name is reused when there is one, created with empty description and interactions under the next key when there is none, and the lookup fails when there are several |
| Consultation.OrEmpty | doctors/views.py:473 | missing instructions are stored as the empty string |
| Consultation.CompleteAppointment | doctors/views.py:436-485 | a missing appointment is not found; one not dated today, a GET, another action or an empty required field changes nothing; otherwise exactly one note and one prescription (for the medication of that name) are added and the appointment becomes completed whatever its status, and nothing else changes; a lookup failure on the medication keeps the note already written |
| Consultation.SetStatusKeepsInvariants | doctors/views.py:476-477 | setting one appointment to a status other than booked keeps the store's invariants |
| Consultation.CompletionKeepsInvariants | doctors/views.py:459-477 | completion keeps the store well formed, appointments with their slot's doctor, and at most one booked appointment per slot |
| Consultation.CompletionSetsStatus | doctors/views.py:476-477 | after completion the appointment is completed and still found at the same place, so completing again leaves the appointments as they are |
| Consultation.FindAppointmentFramed | doctors/views.py:438 | changing an appointment's status does not move where its key is found |
| Consultation.Age | doctors/views.py:180 | the age is the year difference less one exactly when today's (month, day) precedes the birth (month, day), and it is non-negative exactly when the birth is not after today |
| Consultation.AgeCountsBirthdays | doctors/views.py:180 | the n-th birthday has been reached exactly when n is at most the age |
| Consultation.RecordAge | doctors/views.py:177-180 | the record shows an age exactly when a date of birth is on file, and then it is the age |

## Left out

- Django itself is not modelled: the ORM, requests and responses, messages, templates, redirects and JSON encoding. The store is an abstract value and each view returns its outcome.
- Date and time parsing and formatting (`strptime`, `strftime`) are not modelled. A malformed date is the `Malformed` parameter, and times are whole minutes. A non-numeric `doctor_id` (a `ValueError` in the source) is not modelled.
- Seconds and microseconds of times are not modelled. Form times and stored times are whole minutes. The current time is taken rounded up to the minute and clamped at 23:59.
- The gap between `timezone.now()` and `date.today()` is not modelled. "Today" and "now" are parameters.
- Concurrency is not modelled: the check-then-act race between two booking requests. Each view runs alone on one store value.
- Accounts.AnonymousForbidden: `login_required` is not modelled. Every view that uses the role check sits behind it, so an anonymous visitor is redirected to the login page before the role check runs. The lemma states what the role check alone does.
- The browser script, the URL tables, the admin and account configuration, and the authentication views are not modelled. They hold no scheduling logic.
- Field-level form validation is not modelled: required fields, field types, the doctor choice restricted to the chosen department. Only the cross-field `clean` rules are modelled.
- The doctor's department allocation and the profile fields saved next to the availability are not modelled. The availability part of `profile_update` is modelled; its GET prepopulation is not.
- The search filters of today's and the upcoming lists are not modelled. They depend on substring matching of names.
- The stub schedule view, the unused formset, and the add-note, add-treatment and add-prescription views are not modelled. They are outside the scheduling core.
- Listings.Listing: the order of rows with equal (date, start) is left to the database. The contract states only the sort order and the permutation.

## Findings

| source | as written | input that shows it | evidently intended | confidence | as-written member | corrected member |
|---|---|---|---|---|---|---|
| patients/views.py:278 | direct booking refuses only when the requesting patient already holds a booked appointment on the slot | slot 0 of doctor 1 holds a booked appointment of patient 2; patient 3 posts a direct booking of slot 0, which succeeds and leaves two booked appointments on the slot | refuse whenever the slot holds any booked appointment, as the booking view does at patients/views.py:232 | not executed; likely, since the booking view and form both guard against double booking | Booking.DirectBookingDoubleBooks | Booking.BookByScheduleGuarded |

=== FILE: accounts.dfy ===
/** Users, their roles, and the role gate that every patient and doctor
    view sits behind. */
module Accounts {

  datatype Role = Patient | Doctor | Admin

  /** The user attached to a request: an anonymous visitor, or a signed-in
      account with its role. */
  datatype User = Anonymous | Member(id: nat, role: Role)

  /** The HTTP method of a request, as far as the views distinguish it. */
  datatype Method = Get | Post

  /** What a gated view answers: the wrapped view's own response, or a
      403 response with a fixed message. */
  datatype Gated<+R> = Served(response: R) | Forbidden(message: string)

  const ForbiddenMessage: string := "You do not have permission to access this page."

  predicate MayAccess(user: User, role: Role) {
    user.Member? && user.role == role
  }

  /** The role gate: the wrapped view answers for an authenticated user
      holding exactly the required role; everyone else is forbidden. */
  function RoleRequired<Q, R>(role: Role, view: Q -> R, user: User, request: Q): (r: Gated<R>)
    ensures r.Served? <==> user.Member? && user.role == role
    ensures r.Served? ==> r.response == view(request)
    ensures r.Forbidden? ==> r.message == ForbiddenMessage
  {
    if MayAccess(user, role) then Served(view(request)) else Forbidden(ForbiddenMessage)
  }

  /** A forbidden request never reaches the view: the answer is the same
      whatever view is wrapped. */
  lemma ForbiddenIgnoresView<Q, R>(role: Role, v1: Q -> R, v2: Q -> R, user: User, request: Q)
    requires !MayAccess(user, role)
    ensures RoleRequired(role, v1, user, request) == RoleRequired(role, v2, user, request)
    ensures RoleRequired(role, v1, user, request).Forbidden?
  {
  }

  /** An anonymous visitor is forbidden from every gated view. */
  lemma AnonymousForbidden<Q, R>(role: Role, view: Q -> R, request: Q)
    ensures RoleRequired(role, view, Anonymous, request) == Forbidden(ForbiddenMessage)
  {
  }

  /** A signed-in user with another role is forbidden. */
  lemma WrongRoleForbidden<Q, R>(role: Role, view: Q -> R, id: nat, other: Role, request: Q)
    requires other != role
    ensures RoleRequired(role, view, Member(id, other), request) == Forbidden(ForbiddenMessage)
  {
  }
}

=== FILE: availability.dfy ===
/** The weekly availability store and its two writers: the admin's
    doctor-edit form, which replaces a doctor's whole week, and the
    doctor's own profile update, which merges day by day. */
module WeeklyAvailability {
  import opened Base
  import opened Calendar
  import opened DoctorModels

  /** The rows of `doctor` for `day`. */
  function WindowsFor(rows: set<Availability>, doctor: nat, day: Day): (r: set<Availability>)
    ensures forall w :: w in r <==> w in rows && w.doctor == doctor && w.day == day
  {
    set w | w in rows && w.doctor == doctor && w.day == day
  }

  /** The single-row lookup of `doctor`'s window for `day`. */
  function Window(rows: set<Availability>, doctor: nat, day: Day): (r: Lookup<Availability>)
    ensures r.NotFound? <==> forall w :: w in rows ==> !(w.doctor == doctor && w.day == day)
    ensures r.Found? <==> |WindowsFor(rows, doctor, day)| == 1
    ensures r.Multiple? <==> |WindowsFor(rows, doctor, day)| >= 2
    ensures r.Found? ==> r.row in rows && r.row.doctor == doctor && r.row.day == day
    ensures r.Found? ==> forall w :: w in rows && w.doctor == doctor && w.day == day ==> w == r.row
  {
    var m := WindowsFor(rows, doctor, day);
    if m == {} then NotFound else LookupIn(m)
  }

  function OtherRows(rows: set<Availability>, doctor: nat): set<Availability> {
    set w | w in rows && w.doctor != doctor
  }

  /** The days on which `doctor` has at least one row. */
  function DaysOf(rows: set<Availability>, doctor: nat): (r: set<Day>)
    ensures forall d :: d in r <==> exists w :: w in rows && w.doctor == doctor && w.day == d
  {
    set w | w in rows && w.doctor == doctor :: w.day
  }

  // ---------------------------------------------------------------
  // The admin's doctor-edit form: full replace
  // ---------------------------------------------------------------

  /** The seven working-day checkboxes of the form. */
  datatype DayField =
    WorkMonday | WorkTuesday | WorkWednesday | WorkThursday | WorkFriday | WorkSaturday | WorkSunday

  const AllFields: set<DayField> :=
    {WorkMonday, WorkTuesday, WorkWednesday, WorkThursday, WorkFriday, WorkSaturday, WorkSunday}

  function FieldName(f: DayField): string {
    match f
    case WorkMonday => "work_monday"
    case WorkTuesday => "work_tuesday"
    case WorkWednesday => "work_wednesday"
    case WorkThursday => "work_thursday"
    case WorkFriday => "work_friday"
    case WorkSaturday => "work_saturday"
    case WorkSunday => "work_sunday"
  }

  /** The day code a checkbox stands for. */
  function FieldDay(f: DayField): Day {
    match f
    case WorkMonday => Mon
    case WorkTuesday => Tue
    case WorkWednesday => Wed
    case WorkThursday => Thu
    case WorkFriday => Fri
    case WorkSaturday => Sat
    case WorkSunday => Sun
  }

  /** The checkbox of a day code. */
  function FieldFor(d: Day): (f: DayField)
    ensures FieldDay(f) == d
  {
    match d
    case Mon => WorkMonday
    case Tue => WorkTuesday
    case Wed => WorkWednesday
    case Thu => WorkThursday
    case Fri => WorkFriday
    case Sat => WorkSaturday
    case Sun => WorkSunday
  }

  /** Checkboxes and day codes correspond one to one, and each checkbox
      has its own field name. */
  lemma FieldMapIsBijection(f: DayField, g: DayField, d: Day)
    ensures FieldFor(FieldDay(f)) == f
    ensures FieldDay(FieldFor(d)) == d
    ensures FieldDay(f) == FieldDay(g) ==> f == g
    ensures FieldName(f) == FieldName(g) ==> f == g
    ensures f in AllFields && FieldDay(f) in AllDays
  {
  }

  /** The submitted working-days part of the form. */
  datatype EditForm = EditForm(checked: set<DayField>, start: Option<Time>, end: Option<Time>)

  datatype EditError = TimesMissing | EndNotAfterStart

  predicate TimesGiven(form: EditForm) {
    form.start.Some? && form.end.Some?
  }

  /** The form's cross-field validation; `None` means the form is valid. */
  function CleanEdit(form: EditForm): (r: Option<EditError>)
    ensures r == Some(TimesMissing) <==> form.checked != {} && !TimesGiven(form)
    ensures r == Some(EndNotAfterStart) <==>
              !(form.checked != {} && !TimesGiven(form))
              && TimesGiven(form) && form.start.value >= form.end.value
    ensures r.None? ==> TimesGiven(form) ==> form.start.value < form.end.value
  {
    if form.checked != {} && (form.start.None? || form.end.None?) then Some(TimesMissing)
    else if form.start.Some? && form.end.Some? && form.start.value >= form.end.value then Some(EndNotAfterStart)
    else None
  }

  function SelectedDays(form: EditForm): (r: set<Day>)
    ensures forall d :: d in r <==> FieldFor(d) in form.checked
  {
    set f | f in form.checked :: FieldDay(f)
  }

  /** Saving the form: every row of `doctor` is deleted, then one row per
      checked day is created with the submitted hours (none at all when
      either time is missing). */
  function SaveAvailability(rows: set<Availability>, doctor: nat, form: EditForm): (r: set<Availability>)
    ensures OtherRows(r, doctor) == OtherRows(rows, doctor)
    ensures forall w :: w in r && w.doctor == doctor <==>
              TimesGiven(form) && w.doctor == doctor && w.day in SelectedDays(form)
              && w.start == form.start.value && w.end == form.end.value
    ensures TimesGiven(form) ==> DaysOf(r, doctor) == SelectedDays(form)
    ensures !TimesGiven(form) ==> DaysOf(r, doctor) == {}
  {
    var created :=
      if TimesGiven(form)
      then set f | f in form.checked :: Availability(doctor, FieldDay(f), form.start.value, form.end.value)
      else {};
    var r := OtherRows(rows, doctor) + created;
    assert TimesGiven(form) ==> forall d :: d in SelectedDays(form) ==>
      Availability(doctor, d, form.start.value, form.end.value) in r;
    r
  }

  /** Saving the same form twice leaves the same rows as saving it once. */
  lemma SaveIsIdempotent(rows: set<Availability>, doctor: nat, form: EditForm)
    ensures SaveAvailability(SaveAvailability(rows, doctor, form), doctor, form)
            == SaveAvailability(rows, doctor, form)
  {
    var once := SaveAvailability(rows, doctor, form);
    var twice := SaveAvailability(once, doctor, form);
    forall w | w in twice ensures w in once {
      if w.doctor != doctor {
        assert w in OtherRows(twice, doctor);
      }
    }
    forall w | w in once ensures w in twice {
      if w.doctor != doctor {
        assert w in OtherRows(once, doctor);
      }
    }
  }

  /** After a valid save every row of the doctor is a proper window. */
  lemma ValidSaveMakesWindows(rows: set<Availability>, doctor: nat, form: EditForm)
    requires CleanEdit(form).None?
    ensures forall w :: w in SaveAvailability(rows, doctor, form) && w.doctor == doctor ==> w.start < w.end
  {
  }

  /** The checkboxes the form starts with when editing a doctor: ticked
      exactly for the days on which the doctor has a row. */
  function InitialChecks(rows: set<Availability>, doctor: nat): (r: set<DayField>)
    ensures forall f :: f in r <==> FieldDay(f) in DaysOf(rows, doctor)
  {
    set f | f in AllFields && FieldDay(f) in DaysOf(rows, doctor)
  }

  /** The hours the form may start with: those of a first row of the
      doctor in the table's default order (by day code).  Rows sharing the
      first day code are not ordered among themselves, so each of them is
      a candidate. */
  function InitialTimes(rows: set<Availability>, doctor: nat): (r: set<(Time, Time)>)
    ensures forall p :: p in r ==> exists w :: w in rows && w.doctor == doctor && p == (w.start, w.end)
    ensures forall p :: p in r ==>
              exists w :: && w in rows && w.doctor == doctor && p == (w.start, w.end)
                          && forall v :: v in rows && v.doctor == doctor ==> CodeRank(w.day) <= CodeRank(v.day)
    ensures DaysOf(rows, doctor) == {} ==> r == {}
  {
    CodeOrderIsRank();
    var r := set w | w in rows && w.doctor == doctor
                     && (forall v :: v in rows && v.doctor == doctor ==> !CodeBefore(v.day, w.day))
               :: (w.start, w.end);
    assert forall p :: p in r ==> exists w :: w in rows && w.doctor == doctor && w.day in DaysOf(rows, doctor);
    r
  }

  /** Opening the form and saving it unchanged keeps the doctor's days. */
  lemma PrepopulateThenSaveKeepsDays(rows: set<Availability>, doctor: nat, start: Time, end: Time)
    ensures DaysOf(SaveAvailability(rows, doctor, EditForm(InitialChecks(rows, doctor), Some(start), Some(end))), doctor)
            == DaysOf(rows, doctor)
  {
    var form := EditForm(InitialChecks(rows, doctor), Some(start), Some(end));
    assert SelectedDays(form) == DaysOf(rows, doctor) by {
      forall d ensures d in SelectedDays(form) <==> d in DaysOf(rows, doctor) {
        assert FieldDay(FieldFor(d)) == d;
      }
    }
  }

  /** When all of a doctor's rows share one pair of hours, opening the
      form and saving it with those hours reproduces the table exactly. */
  lemma ResubmitReproducesRows(rows: set<Availability>, doctor: nat, start: Time, end: Time)
    requires forall w :: w in rows && w.doctor == doctor ==> w.start == start && w.end == end
    ensures SaveAvailability(rows, doctor, EditForm(InitialChecks(rows, doctor), Some(start), Some(end))) == rows
  {
    var form := EditForm(InitialChecks(rows, doctor), Some(start), Some(end));
    var r := SaveAvailability(rows, doctor, form);
    PrepopulateThenSaveKeepsDays(rows, doctor, start, end);
    forall w | w in r ensures w in rows {
      if w.doctor != doctor {
        assert w in OtherRows(r, doctor);
      } else {
        assert w.day in DaysOf(rows, doctor);
      }
    }
    forall w | w in rows ensures w in r {
      if w.doctor != doctor {
        assert w in OtherRows(rows, doctor);
      } else {
        assert w.day in DaysOf(rows, doctor);
      }
    }
  }

  /** Saving with hours and then reopening the form shows the same ticked
      days and, when some day is ticked, exactly the saved hours. */
  lemma SaveThenPrepopulate(rows: set<Availability>, doctor: nat, form: EditForm)
    requires TimesGiven(form)
    ensures InitialChecks(SaveAvailability(rows, doctor, form), doctor) == form.checked
    ensures form.checked != {} ==>
              InitialTimes(SaveAvailability(rows, doctor, form), doctor) == {(form.start.value, form.end.value)}
  {
    var r := SaveAvailability(rows, doctor, form);
    forall f ensures f in InitialChecks(r, doctor) <==> f in form.checked {
      assert FieldFor(FieldDay(f)) == f;
    }
    if form.checked != {} {
      var t := (form.start.value, form.end.value);
      forall p | p in InitialTimes(r, doctor) ensures p == t { }
      var f :| f in form.checked;
      assert Availability(doctor, FieldDay(f), form.start.value, form.end.value) in r;
      var w := FirstByCode(r, doctor, 0);
    }
  }

  /** A row of `doctor` whose day code comes first among the doctor's
      rows, searching the codes from rank `k` on. */
  lemma {:induction false} FirstByCode(rows: set<Availability>, doctor: nat, k: nat) returns (w: Availability)
    requires exists v :: v in rows && v.doctor == doctor
    requires forall v :: v in rows && v.doctor == doctor ==> CodeRank(v.day) >= k
    ensures w in rows && w.doctor == doctor
    ensures forall v :: v in rows && v.doctor == doctor ==> CodeRank(w.day) <= CodeRank(v.day)
    ensures (w.start, w.end) in InitialTimes(rows, doctor)
    decreases 7 - k
  {
    var u :| u in rows && u.doctor == doctor;
    assert k <= CodeRank(u.day) < 7;
    if v :| v in rows && v.doctor == doctor && CodeRank(v.day) == k {
      w := v;
    } else {
      w := FirstByCode(rows, doctor, k + 1);
    }
    forall v | v in rows && v.doctor == doctor ensures !CodeBefore(v.day, w.day) {
      CodeBeforeIsRank(v.day, w.day);
    }
  }

  // ---------------------------------------------------------------
  // The doctor's profile update: per-day merge
  // ---------------------------------------------------------------

  datatype MergeOutcome =
    | Merged(rows: set<Availability>)
    | MergeFailed(ex: Exception, rows: set<Availability>)

  /** Update-or-create of `doctor`'s row for `day`: the one existing row
      takes the new hours, or a row is created; several existing rows make
      the lookup fail, leaving the rows as they were. */
  function UpdateOrCreate(rows: set<Availability>, doctor: nat, day: Day, start: Time, end: Time): (r: MergeOutcome)
    ensures r.MergeFailed? <==> |WindowsFor(rows, doctor, day)| >= 2
    ensures r.MergeFailed? ==> r.rows == rows
    ensures r.Merged? ==> WindowsFor(r.rows, doctor, day) == {Availability(doctor, day, start, end)}
    ensures r.Merged? ==> forall d :: d != day ==> WindowsFor(r.rows, doctor, d) == WindowsFor(rows, doctor, d)
    ensures r.Merged? ==> OtherRows(r.rows, doctor) == OtherRows(rows, doctor)
  {
    var m := WindowsFor(rows, doctor, day);
    if |m| >= 2 then MergeFailed(MultipleObjectsReturned, rows)
    else
      var r := (rows - m) + {Availability(doctor, day, start, end)};
      assert forall d :: d != day ==> WindowsFor(r, doctor, d) == WindowsFor(rows, doctor, d);
      Merged(r)
  }

  /** The update-or-create loop over the submitted days, in order; the
      first failing day stops it, keeping the days already written. */
  function UpdateEach(rows: set<Availability>, doctor: nat, days: seq<Day>, start: Time, end: Time): (r: MergeOutcome)
    ensures r.MergeFailed? ==> r.ex == MultipleObjectsReturned
    ensures OtherRows(r.rows, doctor) == OtherRows(rows, doctor)
    ensures forall w :: w in r.rows && w !in rows ==> w.doctor == doctor && w.day in days
    ensures forall w :: w in rows && w !in r.rows ==> w.doctor == doctor && w.day in days
    decreases |days|
  {
    if days == [] then Merged(rows)
    else
      match UpdateOrCreate(rows, doctor, days[0], start, end)
      case MergeFailed(ex, partial) => MergeFailed(ex, partial)
      case Merged(next) => UpdateEach(next, doctor, days[1..], start, end)
  }

  /** The profile update's availability step: rows of the doctor on days
      not submitted are deleted, then each submitted day is updated or
      created. */
  function ProfileMerge(rows: set<Availability>, doctor: nat, workingDays: seq<Day>, start: Time, end: Time): (r: MergeOutcome)
    ensures r.MergeFailed? ==> r.ex == MultipleObjectsReturned
    ensures OtherRows(r.rows, doctor) == OtherRows(rows, doctor)
    ensures forall w :: w in r.rows && w.doctor == doctor ==> w.day in workingDays
  {
    var kept := rows - set w | w in rows && w.doctor == doctor && w.day !in workingDays;
    assert OtherRows(kept, doctor) == OtherRows(rows, doctor);
    UpdateEach(kept, doctor, workingDays, start, end)
  }

  /** The loop fails exactly when some submitted day already had several
      rows; on success every submitted day holds exactly the submitted
      hours, other days of the doctor are as before, and other doctors are
      untouched. */
  lemma {:induction false} UpdateEachEffect(rows: set<Availability>, doctor: nat, days: seq<Day>, start: Time, end: Time)
    ensures UpdateEach(rows, doctor, days, start, end).Merged?
            <==> forall i :: 0 <= i < |days| ==> |WindowsFor(rows, doctor, days[i])| <= 1
    ensures UpdateEach(rows, doctor, days, start, end).Merged? ==>
              forall d :: d in days ==>
                WindowsFor(UpdateEach(rows, doctor, days, start, end).rows, doctor, d)
                == {Availability(doctor, d, start, end)}
    ensures UpdateEach(rows, doctor, days, start, end).Merged? ==>
              forall d :: d !in days ==>
                WindowsFor(UpdateEach(rows, doctor, days, start, end).rows, doctor, d)
                == WindowsFor(rows, doctor, d)
    decreases |days|
  {
    if days != [] {
      var step := UpdateOrCreate(rows, doctor, days[0], start, end);
      if step.Merged? {
        var next := step.rows;
        UpdateEachEffect(next, doctor, days[1..], start, end);
        var r := UpdateEach(rows, doctor, days, start, end);
        assert r == UpdateEach(next, doctor, days[1..], start, end);
        forall i | 1 <= i < |days|
          ensures |WindowsFor(next, doctor, days[i])| <= 1 <==> |WindowsFor(rows, doctor, days[i])| <= 1
        {
          if days[i] == days[0] {
            assert WindowsFor(next, doctor, days[i]) == {Availability(doctor, days[0], start, end)};
          }
        }
        assert forall i :: 1 <= i < |days| ==> days[1..][i - 1] == days[i];
        if r.Merged? {
          forall d | d in days
            ensures WindowsFor(r.rows, doctor, d) == {Availability(doctor, d, start, end)}
          {
            if d !in days[1..] {
              assert d == days[0];
            }
          }
        }
      }
    }
  }

  /** After a successful profile update the doctor works exactly on the
      submitted days, each with exactly the submitted hours, and no other
      doctor's rows have changed.  The update fails exactly when a
      submitted day already held several rows of the doctor. */
  lemma ProfileMergeEffect(rows: set<Availability>, doctor: nat, workingDays: seq<Day>, start: Time, end: Time)
    ensures ProfileMerge(rows, doctor, workingDays, start, end).Merged?
            <==> forall i :: 0 <= i < |workingDays| ==> |WindowsFor(rows, doctor, workingDays[i])| <= 1
    ensures ProfileMerge(rows, doctor, workingDays, start, end).Merged? ==>
              DaysOf(ProfileMerge(rows, doctor, workingDays, start, end).rows, doctor)
              == set d | d in workingDays
    ensures ProfileMerge(rows, doctor, workingDays, start, end).Merged? ==>
              forall d :: d in workingDays ==>
                WindowsFor(ProfileMerge(rows, doctor, workingDays, start, end).rows, doctor, d)
                == {Availability(doctor, d, start, end)}
  {
    var kept := rows - set w | w in rows && w.doctor == doctor && w.day !in workingDays;
    UpdateEachEffect(kept, doctor, workingDays, start, end);
    forall i | 0 <= i < |workingDays|
      ensures WindowsFor(kept, doctor, workingDays[i]) == WindowsFor(rows, doctor, workingDays[i])
    {
    }
    assert OtherRows(kept, doctor) == OtherRows(rows, doctor);
    var r := ProfileMerge(rows, doctor, workingDays, start, end);
    if r.Merged? {
      forall d ensures d in DaysOf(r.rows, doctor) <==> d in workingDays {
        if d in workingDays {
          assert Availability(doctor, d, start, end) in WindowsFor(r.rows, doctor, d);
        } else {
          assert WindowsFor(r.rows, doctor, d) == WindowsFor(kept, doctor, d) == {};
        }
      }
    }
  }
}

=== FILE: base.dfy ===
/** Shared building blocks: optional values, the three outcomes of a
    single-object database lookup, and order-preserving filtering of
    table rows. */
module Base {

  datatype Option<+T> = None | Some(value: T)

  /** What a single-object lookup (`objects.get(...)`) yields: no row,
      exactly one row, or several rows (which the ORM reports by raising
      an exception that the views in this system do not catch). */
  datatype Lookup<+T> = NotFound | Found(row: T) | Multiple

  /** The exceptions that escape a view uncaught and end the request with
      a server error. */
  datatype Exception =
    | MultipleObjectsReturned
    | RelatedObjectDoesNotExist
    | OverflowError

  /** A form value counts as given when it is present and non-empty
      (the truthiness test the views apply to submitted strings). */
  predicate Given(v: Option<string>) {
    v.Some? && v.value != ""
  }

  /** The rows of `s` that satisfy `p`, in their original order. */
  function Filter<T(!new)>(s: seq<T>, p: T -> bool): (r: seq<T>)
    ensures |r| <= |s|
    ensures forall x :: x in r <==> x in s && p(x)
  {
    if s == [] then []
    else if p(s[0]) then [s[0]] + Filter(s[1..], p)
    else Filter(s[1..], p)
  }

  /** Filtering keeps each row that satisfies `p` exactly as often as `s`
      holds it, and no other. */
  lemma {:induction false} FilterCounts<T(!new)>(s: seq<T>, p: T -> bool)
    ensures forall x :: multiset(Filter(s, p))[x] == if p(x) then multiset(s)[x] else 0
  {
    if s != [] {
      FilterCounts(s[1..], p);
      assert s == [s[0]] + s[1..];
    }
  }

  /** Filtering keeps the relative order of the rows it keeps. */
  lemma {:induction false} FilterKeepsOrder<T(!new)>(s: seq<T>, p: T -> bool, i: int, j: int)
    requires 0 <= i < j < |Filter(s, p)|
    ensures exists a, b :: 0 <= a < b < |s| && s[a] == Filter(s, p)[i] && s[b] == Filter(s, p)[j]
  {
    if p(s[0]) {
      if i == 0 {
        var x := Filter(s[1..], p)[j - 1];
        assert x in Filter(s[1..], p);
        assert x in s[1..];
        var b :| 0 <= b < |s[1..]| && s[1..][b] == x;
        assert s[0] == Filter(s, p)[0] && s[b + 1] == Filter(s, p)[j];
      } else {
        FilterKeepsOrder(s[1..], p, i - 1, j - 1);
        var a, b :| 0 <= a < b < |s[1..]| && s[1..][a] == Filter(s[1..], p)[i - 1]
                     && s[1..][b] == Filter(s[1..], p)[j - 1];
        assert s[a + 1] == Filter(s, p)[i] && s[b + 1] == Filter(s, p)[j];
      }
    } else {
      FilterKeepsOrder(s[1..], p, i, j);
      var a, b :| 0 <= a < b < |s[1..]| && s[1..][a] == Filter(s[1..], p)[i]
                   && s[1..][b] == Filter(s[1..], p)[j];
      assert s[a + 1] == Filter(s, p)[i] && s[b + 1] == Filter(s, p)[j];
    }
  }

  /** Classifies the rows of `s` the way a single-object lookup does. */
  function LookupOf<T>(s: seq<T>): (r: Lookup<T>)
    ensures r.NotFound? <==> |s| == 0
    ensures r.Found? <==> |s| == 1
    ensures r.Found? ==> r.row == s[0]
    ensures r.Multiple? <==> |s| >= 2
  {
    if |s| == 0 then NotFound
    else if |s| == 1 then Found(s[0])
    else Multiple
  }

  /** A set with exactly one element is the singleton of that element. */
  lemma SingletonSet<T>(s: set<T>, x: T)
    requires |s| == 1 && x in s
    ensures s == {x}
  {
    assert |s - {x}| == 0;
    assert s - {x} == {};
  }

  /** Classifies a set of rows the way a single-object lookup does. */
  function LookupIn<T>(s: set<T>): (r: Lookup<T>)
    ensures r.NotFound? <==> |s| == 0
    ensures r.Found? <==> |s| == 1
    ensures r.Found? ==> s == {r.row}
    ensures r.Multiple? <==> |s| >= 2
  {
    if |s| == 0 then NotFound
    else if |s| == 1 then
      var x :| x in s;
      SingletonSet(s, x);
      Found(x)
    else Multiple
  }
}

=== FILE: booking.dfy ===
/** Booking an appointment: the booking form's validation, the booking
    view that gets or creates the time slot and books it, direct booking
    of an existing slot by its key, and paying a bill. */
module Booking {
  import opened Base
  import opened Calendar
  import opened Accounts
  import opened DoctorModels
  import opened PatientModels
  import opened Store
  import opened WeeklyAvailability
  import opened SlotGenerator

  datatype BookingError =
    | NotAvailableOnDate
    | OutsideWorkingHours
    | SlotAlreadyBooked
    | AlreadyBookedByYou
    | NoSuchRecord

  /** The booking form's verdict on doctor, date and time. */
  datatype Verdict = Accepted | Rejected(error: BookingError) | Raised(ex: Exception)

  // ---------------------------------------------------------------
  // The booking form's validation
  // ---------------------------------------------------------------

  /** The booking form's cross-field check.  It runs only when doctor,
      date and time are all present: the doctor needs a window for the
      date's weekday, the time must lie in [start, end) of that window,
      and an existing slot at that start must not hold a booked
      appointment.  The date itself is not checked against today. */
  function CleanBooking(db: Db, doctor: Option<nat>, date: Option<Date>, time: Option<Time>): (r: Verdict)
    ensures (doctor.None? || date.None? || time.None?) ==> r == Accepted
    ensures (doctor.Some? && date.Some? && time.Some?) ==>
              (r == Rejected(NotAvailableOnDate)
               <==> WindowsFor(db.availability, doctor.value, DayOf(date.value)) == {})
    ensures (doctor.Some? && date.Some? && time.Some?
             && Window(db.availability, doctor.value, DayOf(date.value)).Found?) ==>
              var w := Window(db.availability, doctor.value, DayOf(date.value)).row;
              (r == Rejected(OutsideWorkingHours) <==> time.value < w.start || time.value >= w.end)
    ensures (r.Accepted? && doctor.Some? && date.Some? && time.Some?) ==>
              exists w :: w in db.availability && w.doctor == doctor.value && w.day == DayOf(date.value)
                && w.start <= time.value < w.end
    ensures r == Rejected(SlotAlreadyBooked) ==>
              exists s :: s in db.slots && s.doctor == doctor.value && s.date == date.value
                && s.start == time.value && HasBooked(db.appointments, s.id)
    ensures (doctor.Some? && date.Some? && time.Some?) ==>
              (r.Raised? <==>
                 || |WindowsFor(db.availability, doctor.value, DayOf(date.value))| >= 2
                 || (&& Window(db.availability, doctor.value, DayOf(date.value)).Found?
                     && Window(db.availability, doctor.value, DayOf(date.value)).row.start <= time.value
                     && time.value < Window(db.availability, doctor.value, DayOf(date.value)).row.end
                     && |SlotsAt(db.slots, doctor.value, date.value, time.value)| >= 2))
    ensures r.Raised? ==> r.ex == MultipleObjectsReturned
    ensures r != Rejected(AlreadyBookedByYou) && r != Rejected(NoSuchRecord)
  {
    if doctor.None? || date.None? || time.None? then Accepted
    else
      var t := time.value;
      match Window(db.availability, doctor.value, DayOf(date.value))
      case NotFound => Rejected(NotAvailableOnDate)
      case Multiple => Raised(MultipleObjectsReturned)
      case Found(w) =>
        if t < w.start || t >= w.end then Rejected(OutsideWorkingHours)
        else
          match LookupOf(SlotsAt(db.slots, doctor.value, date.value, t))
          case NotFound => Accepted
          case Multiple => Raised(MultipleObjectsReturned)
          case Found(s) =>
            assert s in SlotsAt(db.slots, doctor.value, date.value, t);
            if HasBooked(db.appointments, s.id) then Rejected(SlotAlreadyBooked) else Accepted
  }

  /** A slot already holding a booked appointment, or holding only
      cancelled and completed ones, decides the conflict check exactly:
      the first rejects the time, the second and a missing slot never
      do. */
  lemma ConflictCheck(db: Db, doctor: nat, date: Date, time: Time)
    requires Window(db.availability, doctor, DayOf(date)).Found?
    requires var w := Window(db.availability, doctor, DayOf(date)).row; w.start <= time < w.end
    ensures SlotsAt(db.slots, doctor, date, time) == [] ==>
              CleanBooking(db, Some(doctor), Some(date), Some(time)) == Accepted
    ensures |SlotsAt(db.slots, doctor, date, time)| == 1 ==>
              (CleanBooking(db, Some(doctor), Some(date), Some(time)) == Rejected(SlotAlreadyBooked)
               <==> HasBooked(db.appointments, SlotsAt(db.slots, doctor, date, time)[0].id))
    ensures |SlotsAt(db.slots, doctor, date, time)| == 1 ==>
              (CleanBooking(db, Some(doctor), Some(date), Some(time)) == Accepted
               <==> !HasBooked(db.appointments, SlotsAt(db.slots, doctor, date, time)[0].id))
  {
  }

  // ---------------------------------------------------------------
  // The booking view
  // ---------------------------------------------------------------

  /** Adds a booked appointment under the next key. */
  function AddAppointment(db: Db, patient: nat, doctor: nat, slot: nat, symptoms: Option<string>): (r: Db)
    ensures r.appointments == db.appointments + [NewAppointment(db.nextAppointment, patient, doctor, slot, symptoms)]
    ensures r.nextAppointment == db.nextAppointment + 1
    ensures r.(appointments := db.appointments, nextAppointment := db.nextAppointment) == db
  {
    db.(appointments := db.appointments + [NewAppointment(db.nextAppointment, patient, doctor, slot, symptoms)],
        nextAppointment := db.nextAppointment + 1)
  }

  /** The slot a booking of (doctor, date, time) uses: the existing one
      starting then, or a new one ending 30 minutes later on the clock.
      The caller has already ruled out the overflow of that end on the
      last representable date. */
  function GetOrCreateSlot(db: Db, doctor: nat, date: Date, time: Time): (r: Lookup<(Db, TimeSlot)>)
    ensures r.Multiple? <==> |SlotsAt(db.slots, doctor, date, time)| >= 2
    ensures r.NotFound? ==> false
    ensures r.Found? && |SlotsAt(db.slots, doctor, date, time)| == 1 ==>
              r.row == (db, SlotsAt(db.slots, doctor, date, time)[0])
    ensures r.Found? && SlotsAt(db.slots, doctor, date, time) == [] ==>
              var s := TimeSlot(db.nextSlot, doctor, date, time, ClockAdd(time, 30));
              r.row == (db.(slots := db.slots + [s], nextSlot := db.nextSlot + 1), s)
  {
    match LookupOf(SlotsAt(db.slots, doctor, date, time))
    case Multiple => Multiple
    case Found(s) => Found((db, s))
    case NotFound =>
      var s := TimeSlot(db.nextSlot, doctor, date, time, ClockAdd(time, 30));
      Found((db.(slots := db.slots + [s], nextSlot := db.nextSlot + 1), s))
  }

  /** The booking view after the form has validated: compute the slot's
      end (which overflows past 23:30 on the last representable date), get
      or create the slot, refuse if it already holds a booked appointment,
      otherwise book it for the patient. */
  function CreateBooking(db: Db, patient: nat, doctor: nat, date: Date, time: Time, symptoms: string): (r: Outcome<BookingError>)
    ensures r.Crashed? <==> AddOverflows(date, time, SlotMinutes) || |SlotsAt(db.slots, doctor, date, time)| >= 2
    ensures r.Crashed? ==> r.db == db
    ensures AddOverflows(date, time, SlotMinutes) ==> r == Crashed(OverflowError, db)
    ensures !AddOverflows(date, time, SlotMinutes) && |SlotsAt(db.slots, doctor, date, time)| >= 2 ==>
              r == Crashed(MultipleObjectsReturned, db)
    ensures r.Refused? <==>
              && !AddOverflows(date, time, SlotMinutes)
              && ((|SlotsAt(db.slots, doctor, date, time)| == 1
                   && HasBooked(db.appointments, SlotsAt(db.slots, doctor, date, time)[0].id))
                  || (SlotsAt(db.slots, doctor, date, time) == [] && HasBooked(db.appointments, db.nextSlot)))
    ensures r.Refused? ==> r.error == SlotAlreadyBooked && r.db.appointments == db.appointments
    ensures r.Done? ==>
              && |r.db.appointments| == |db.appointments| + 1
              && r.db.appointments[..|db.appointments|] == db.appointments
              && var a := r.db.appointments[|db.appointments|];
                 && a.id == db.nextAppointment && a.patient == patient && a.doctor == doctor
                 && a.status == Booked && a.symptoms == Some(symptoms)
                 && exists s :: s in r.db.slots && s.id == a.slot
                      && s.doctor == doctor && s.date == date && s.start == time
    ensures !r.Crashed? ==>
              if SlotsAt(db.slots, doctor, date, time) == []
              then r.db.slots == db.slots + [TimeSlot(db.nextSlot, doctor, date, time, ClockAdd(time, 30))]
                   && r.db.nextSlot == db.nextSlot + 1
              else r.db.slots == db.slots && r.db.nextSlot == db.nextSlot
    ensures r.Refused? ==> r.db.nextAppointment == db.nextAppointment
    ensures r.Done? ==> r.db.nextAppointment == db.nextAppointment + 1
    ensures r.db.(slots := db.slots, nextSlot := db.nextSlot,
                  appointments := db.appointments, nextAppointment := db.nextAppointment) == db
  {
    if AddOverflows(date, time, SlotMinutes) then Crashed(OverflowError, db)
    else match GetOrCreateSlot(db, doctor, date, time)
    case Multiple => Crashed(MultipleObjectsReturned, db)
    case Found((db1, s)) =>
      if HasBooked(db1.appointments, s.id) then Refused(SlotAlreadyBooked, db1)
      else
        var r := AddAppointment(db1, patient, doctor, s.id, Some(symptoms));
        assert s in r.slots;
        Done(r)
  }

  /** The whole booking request: the form's verdict first, then the
      booking itself. */
  function BookAppointmentForm(db: Db, patient: nat, doctor: nat, date: Date, time: Time, symptoms: string): (r: Outcome<BookingError>)
    ensures CleanBooking(db, Some(doctor), Some(date), Some(time)).Rejected? ==>
              r == Refused(CleanBooking(db, Some(doctor), Some(date), Some(time)).error, db)
    ensures CleanBooking(db, Some(doctor), Some(date), Some(time)).Raised? ==> r.Crashed? && r.db == db
    ensures CleanBooking(db, Some(doctor), Some(date), Some(time)).Accepted? ==>
              r == CreateBooking(db, patient, doctor, date, time, symptoms)
    ensures (WellFormed(db) && CleanBooking(db, Some(doctor), Some(date), Some(time)).Accepted?) ==>
              (r.Done? <==> !AddOverflows(date, time, SlotMinutes))
  {
    match CleanBooking(db, Some(doctor), Some(date), Some(time))
    case Rejected(e) => Refused(e, db)
    case Raised(ex) => Crashed(ex, db)
    case Accepted =>
      var r := CreateBooking(db, patient, doctor, date, time, symptoms);
      if WellFormed(db) then
        BookingAfterCleanSucceeds(db, patient, doctor, date, time, symptoms);
        r
      else r
  }

  /** In a well-formed store no appointment points at the key the next
      slot will take. */
  lemma NextSlotIsFree(db: Db)
    requires WellFormed(db)
    ensures forall a :: a in db.appointments ==> a.slot != db.nextSlot
  {
    forall a | a in db.appointments ensures a.slot != db.nextSlot {
      var t :| t in db.slots && t.id == a.slot;
      var k :| 0 <= k < |db.slots| && db.slots[k] == t;
    }
  }

  /** Once the form has accepted a time, the view's own double-booking
      check can no longer refuse it: within one request the check is
      redundant, and the booking succeeds unless the slot's end
      overflows. */
  lemma BookingAfterCleanSucceeds(db: Db, patient: nat, doctor: nat, date: Date, time: Time, symptoms: string)
    requires WellFormed(db)
    requires CleanBooking(db, Some(doctor), Some(date), Some(time)) == Accepted
    ensures CreateBooking(db, patient, doctor, date, time, symptoms).Done? <==> !AddOverflows(date, time, SlotMinutes)
  {
    if SlotsAt(db.slots, doctor, date, time) == [] {
      NextSlotIsFree(db);
    }
  }

  /** Adding a slot with a key (doctor, date, start) no slot has yet
      keeps the store's invariants, and the new slot is free. */
  lemma AddSlotKeepsInvariants(db: Db, doctor: nat, date: Date, time: Time)
    requires WellFormed(db) && DoctorsAgree(db) && AtMostOneBooked(db)
    requires SlotsAt(db.slots, doctor, date, time) == []
    ensures var s := TimeSlot(db.nextSlot, doctor, date, time, ClockAdd(time, 30));
            var d := db.(slots := db.slots + [s], nextSlot := db.nextSlot + 1);
            && WellFormed(d) && DoctorsAgree(d) && AtMostOneBooked(d)
            && s in d.slots && !HasBooked(d.appointments, s.id)
  {
    var s := TimeSlot(db.nextSlot, doctor, date, time, ClockAdd(time, 30));
    var d := db.(slots := db.slots + [s], nextSlot := db.nextSlot + 1);
    NextSlotIsFree(db);
    forall i | 0 <= i < |db.slots| ensures !SameSlotKey(db.slots[i], s) {
      assert db.slots[i] !in SlotsAt(db.slots, doctor, date, time);
    }
    assert UniqueSlots(d.slots);
    assert SlotsExist(d) by {
      forall a | a in d.appointments ensures exists t :: t in d.slots && t.id == a.slot {
        var t :| t in db.slots && t.id == a.slot;
        assert t in d.slots;
      }
    }
  }

  /** Booking a slot that is free, for the doctor who owns it, keeps the
      store's invariants. */
  lemma AddAppointmentKeepsInvariants(db: Db, patient: nat, s: TimeSlot, symptoms: Option<string>)
    requires WellFormed(db) && DoctorsAgree(db) && AtMostOneBooked(db)
    requires s in db.slots && !HasBooked(db.appointments, s.id)
    ensures var r := AddAppointment(db, patient, s.doctor, s.id, symptoms);
            WellFormed(r) && DoctorsAgree(r) && AtMostOneBooked(r)
  {
    var r := AddAppointment(db, patient, s.doctor, s.id, symptoms);
    AppendKeepsAtMostOneBooked(db, r, s.id);
    assert DoctorsAgree(r) by {
      forall a, t | a in r.appointments && t in r.slots && t.id == a.slot
        ensures a.doctor == t.doctor
      {
        if a !in db.appointments {
          var i :| 0 <= i < |db.slots| && db.slots[i] == s;
          var j :| 0 <= j < |db.slots| && db.slots[j] == t;
        }
      }
    }
  }

  /** Booking keeps the store well formed, keeps every appointment with
      its slot's doctor, and never puts a second booked appointment on a
      slot. */
  lemma CreateBookingKeepsInvariants(db: Db, patient: nat, doctor: nat, date: Date, time: Time, symptoms: string)
    requires WellFormed(db) && DoctorsAgree(db) && AtMostOneBooked(db)
    ensures var r := CreateBooking(db, patient, doctor, date, time, symptoms);
            WellFormed(r.db) && DoctorsAgree(r.db) && AtMostOneBooked(r.db)
  {
    var m := SlotsAt(db.slots, doctor, date, time);
    if m == [] {
      AddSlotKeepsInvariants(db, doctor, date, time);
      var s := TimeSlot(db.nextSlot, doctor, date, time, ClockAdd(time, 30));
      var d := db.(slots := db.slots + [s], nextSlot := db.nextSlot + 1);
      AddAppointmentKeepsInvariants(d, patient, s, Some(symptoms));
    } else if |m| == 1 && !HasBooked(db.appointments, m[0].id) {
      assert m[0] in m;
      AddAppointmentKeepsInvariants(db, patient, m[0], Some(symptoms));
    }
  }

  /** Appending one booked appointment on a slot with no booked
      appointment keeps at most one booked appointment per slot. */
  lemma AppendKeepsAtMostOneBooked(db: Db, r: Db, slot: nat)
    requires AtMostOneBooked(db) && !HasBooked(db.appointments, slot)
    requires |r.appointments| == |db.appointments| + 1
    requires r.appointments[..|db.appointments|] == db.appointments
    requires r.appointments[|db.appointments|].slot == slot
    ensures AtMostOneBooked(r)
  {
    var n := |db.appointments|;
    forall i, j | 0 <= i < j < |r.appointments| && r.appointments[i].slot == r.appointments[j].slot
      ensures !(r.appointments[i].status.Booked? && r.appointments[j].status.Booked?)
    {
      if j < n {
        assert r.appointments[i] == db.appointments[i] && r.appointments[j] == db.appointments[j];
      } else {
        assert r.appointments[i] == db.appointments[i];
        assert r.appointments[i] in db.appointments;
      }
    }
  }
  // ---------------------------------------------------------------
  // Direct booking of an existing slot by its key
  // ---------------------------------------------------------------

  /** Direct booking as written: refused only when the same patient
      already holds a booked appointment on the slot. */
  function BookBySchedule(db: Db, patient: nat, slotId: nat, verb: Method): (r: Outcome<BookingError>)
    ensures !r.Crashed?
    ensures SlotById(db.slots, slotId).None? ==> r == Refused(NoSuchRecord, db)
    ensures verb.Get? ==> r.db == db
    ensures (SlotById(db.slots, slotId).Some? && verb.Get?) ==> r == Done(db)
    ensures (SlotById(db.slots, slotId).Some? && verb.Post?) ==>
              (r.Refused? <==> exists a :: a in db.appointments && a.patient == patient
                                 && a.slot == slotId && a.status == Booked)
    ensures (SlotById(db.slots, slotId).Some? && r.Refused?) ==> r.error == AlreadyBookedByYou
    ensures (SlotById(db.slots, slotId).Some? && verb.Post?
             && !exists a :: a in db.appointments && a.patient == patient && a.slot == slotId && a.status == Booked) ==>
              r == Done(AddAppointment(db, patient, SlotById(db.slots, slotId).value.doctor, slotId, None))
    ensures (r.Done? && verb.Post?) ==>
              r.db == AddAppointment(db, patient, SlotById(db.slots, slotId).value.doctor, slotId, None)
    ensures r.Refused? ==> r.db == db
  {
    match SlotById(db.slots, slotId)
    case None => Refused(NoSuchRecord, db)
    case Some(s) =>
      if verb.Get? then Done(db)
      else if exists a :: a in db.appointments && a.patient == patient && a.slot == s.id && a.status.Booked?
      then Refused(AlreadyBookedByYou, db)
      else Done(AddAppointment(db, patient, s.doctor, s.id, None))
  }

  /** Another patient's booking does not stop a direct booking, which
      then leaves two booked appointments on one slot. */
  lemma DirectBookingDoubleBooks()
    ensures var d := Db(map[1 := Doctor, 2 := Patient, 3 := Patient],
                        {}, [TimeSlot(0, 1, CivilDate(2026, 10, 12), 540, 570)], 1,
                        [Appointment(0, 2, 1, 0, None, Booked)], 1,
                        [], [], 0, [], []);
            && WellFormed(d) && DoctorsAgree(d) && AtMostOneBooked(d)
            && BookBySchedule(d, 3, 0, Post).Done?
            && !AtMostOneBooked(BookBySchedule(d, 3, 0, Post).db)
  {
    var d := Db(map[1 := Doctor, 2 := Patient, 3 := Patient],
                {}, [TimeSlot(0, 1, CivilDate(2026, 10, 12), 540, 570)], 1,
                [Appointment(0, 2, 1, 0, None, Booked)], 1,
                [], [], 0, [], []);
    var r := BookBySchedule(d, 3, 0, Post);
    assert d.slots[0] in d.slots;
    assert !exists a :: a in d.appointments && a.patient == 3 && a.slot == 0 && a.status == Booked;
    assert r.db.appointments[0].slot == r.db.appointments[1].slot;
  }

  /** Direct booking as evidently intended: refused whenever the slot
      already holds a booked appointment, whoever holds it. */
  function BookByScheduleGuarded(db: Db, patient: nat, slotId: nat, verb: Method): (r: Outcome<BookingError>)
    ensures !r.Crashed?
    ensures SlotById(db.slots, slotId).None? ==> r == Refused(NoSuchRecord, db)
    ensures verb.Get? ==> r.db == db
    ensures (SlotById(db.slots, slotId).Some? && verb.Get?) ==> r == Done(db)
    ensures (SlotById(db.slots, slotId).Some? && verb.Post?) ==>
              (r.Refused? <==> HasBooked(db.appointments, slotId))
    ensures (SlotById(db.slots, slotId).Some? && r.Refused?) ==> r.error == SlotAlreadyBooked
    ensures (SlotById(db.slots, slotId).Some? && verb.Post? && !HasBooked(db.appointments, slotId)) ==>
              r == Done(AddAppointment(db, patient, SlotById(db.slots, slotId).value.doctor, slotId, None))
    ensures (r.Done? && verb.Post?) ==>
              r.db == AddAppointment(db, patient, SlotById(db.slots, slotId).value.doctor, slotId, None)
    ensures r.Refused? ==> r.db == db
  {
    match SlotById(db.slots, slotId)
    case None => Refused(NoSuchRecord, db)
    case Some(s) =>
      if verb.Get? then Done(db)
      else if HasBooked(db.appointments, s.id) then Refused(SlotAlreadyBooked, db)
      else Done(AddAppointment(db, patient, s.doctor, s.id, None))
  }

  /** The guarded direct booking keeps the store well formed, keeps each
      appointment with its slot's doctor, and keeps at most one booked
      appointment per slot. */
  lemma GuardedDirectBookingKeepsInvariants(db: Db, patient: nat, slotId: nat, verb: Method)
    requires WellFormed(db) && DoctorsAgree(db) && AtMostOneBooked(db)
    ensures var r := BookByScheduleGuarded(db, patient, slotId, verb);
            WellFormed(r.db) && DoctorsAgree(r.db) && AtMostOneBooked(r.db)
  {
    var r := BookByScheduleGuarded(db, patient, slotId, verb);
    if r.Done? && verb.Post? {
      AddAppointmentKeepsInvariants(db, patient, SlotById(db.slots, slotId).value, None);
    }
  }

  // ---------------------------------------------------------------
  // What a booking does to the free-slot query
  // ---------------------------------------------------------------

  /** Every start time the free-slot query offers passes the booking
      form's weekday and working-hours checks, and, when appointments sit
      with their slot's doctor, its conflict check too: the form accepts
      it unless the slot lookup itself fails. */
  lemma OfferedSlotPassesForm(db: Db, doctor: nat, date: Date, today: Date, now: Time, s: Time)
    requires AvailableSlots(db, Some(doctor), Value(date), today, now).Slots?
    requires s in AvailableSlots(db, Some(doctor), Value(date), today, now).times
    ensures CleanBooking(db, Some(doctor), Some(date), Some(s)) != Rejected(NotAvailableOnDate)
    ensures CleanBooking(db, Some(doctor), Some(date), Some(s)) != Rejected(OutsideWorkingHours)
    ensures DoctorsAgree(db) ==>
              CleanBooking(db, Some(doctor), Some(date), Some(s)).Accepted?
              || CleanBooking(db, Some(doctor), Some(date), Some(s)).Raised?
  {
    var w := Window(db.availability, doctor, DayOf(date)).row;
    AvailableSlotsOffers(db, doctor, date, today, now, s);
    var m := SlotsAt(db.slots, doctor, date, s);
    if DoctorsAgree(db) && |m| == 1 {
      assert m[0] in m;
      forall a | a in db.appointments && a.slot == m[0].id
        ensures a.status.Booked? ==> s in BookedStarts(db, doctor, date)
      {
      }
    }
  }

  /** After a booking succeeds, the free-slot query for that doctor and
      date no longer offers the booked time. */
  lemma BookedTimeLeavesQuery(db: Db, patient: nat, doctor: nat, date: Date, time: Time,
                              symptoms: string, today: Date, now: Time)
    requires CreateBooking(db, patient, doctor, date, time, symptoms).Done?
    ensures var r := CreateBooking(db, patient, doctor, date, time, symptoms);
            var q := AvailableSlots(r.db, Some(doctor), Value(date), today, now);
            q.Slots? ==> time !in q.times
  {
    var r := CreateBooking(db, patient, doctor, date, time, symptoms);
    var a := r.db.appointments[|db.appointments|];
    assert a in r.db.appointments;
    var s :| s in r.db.slots && s.id == a.slot && s.doctor == doctor && s.date == date && s.start == time;
    assert time in BookedStarts(r.db, doctor, date);
    var q := AvailableSlots(r.db, Some(doctor), Value(date), today, now);
    if q.Slots? && q.times != [] {
      AvailableSlotsOffers(r.db, doctor, date, today, now, time);
    }
  }

  /** The form accepts more than the query offers: a time off the
      30-minute grid, and a time whose slot runs past the window's end. */
  lemma FormAcceptsWhatQueryDoesNotOffer()
    ensures var w := Availability(1, Mon, 540, 585);
            var d := Db(map[1 := Doctor], {w}, [], 0, [], 0, [], [], 0, [], []);
            var monday := CivilDate(2026, 10, 12);
            var today := CivilDate(2026, 10, 11);
            && DayOf(monday) == Mon
            && CleanBooking(d, Some(1), Some(monday), Some(545)) == Accepted
            && CleanBooking(d, Some(1), Some(monday), Some(570)) == Accepted
            && AvailableSlots(d, Some(1), Value(monday), today, 0) == Slots([540])
  {
    var w := Availability(1, Mon, 540, 585);
    var d := Db(map[1 := Doctor], {w}, [], 0, [], 0, [], [], 0, [], []);
    var monday := CivilDate(2026, 10, 12);
    assert WindowsFor(d.availability, 1, Mon) == {w};
    assert Window(d.availability, 1, Mon) == Found(w);
    assert BookedStarts(d, 1, monday) == {};
    assert Walk(540, 585, {}, 0) == [540];
  }

  // ---------------------------------------------------------------
  // Paying a bill
  // ---------------------------------------------------------------

  /** The position of the patient's bill with key `id`, if any. */
  function FindBill(bills: seq<Billing>, id: nat, patient: nat): (r: Option<nat>)
    ensures r.Some? ==> r.value < |bills| && bills[r.value].id == id && bills[r.value].patient == patient
    ensures r.None? ==> forall b :: b in bills ==> !(b.id == id && b.patient == patient)
  {
    if bills == [] then None
    else if bills[0].id == id && bills[0].patient == patient then Some(0)
    else match FindBill(bills[1..], id, patient)
      case None => None
      case Some(k) => Some(k + 1)
  }

  /** Paying: the patient's own bill is marked paid on a POST; a GET only
      shows it; someone else's or a missing bill is not found. */
  function PayBill(db: Db, patient: nat, id: nat, verb: Method): (r: Outcome<BookingError>)
    ensures FindBill(db.billings, id, patient).None? ==> r == Refused(NoSuchRecord, db)
    ensures FindBill(db.billings, id, patient).Some? ==> r.Done?
    ensures verb.Get? ==> r.db == db
    ensures (r.Done? && verb.Post?) ==>
              var k := FindBill(db.billings, id, patient).value;
              && |r.db.billings| == |db.billings|
              && r.db.billings[k] == db.billings[k].(isPaid := true)
              && (forall j :: 0 <= j < |db.billings| && j != k ==> r.db.billings[j] == db.billings[j])
              && r.db.(billings := db.billings) == db
  {
    match FindBill(db.billings, id, patient)
    case None => Refused(NoSuchRecord, db)
    case Some(k) =>
      if verb.Get? then Done(db)
      else Done(db.(billings := db.billings[k := db.billings[k].(isPaid := true)]))
  }

  /** Paying twice leaves the store as paying once. */
  lemma PayBillIsIdempotent(db: Db, patient: nat, id: nat)
    ensures PayBill(PayBill(db, patient, id, Post).db, patient, id, Post) == PayBill(db, patient, id, Post)
  {
    var once := PayBill(db, patient, id, Post);
    if FindBill(db.billings, id, patient).Some? {
      var k := FindBill(db.billings, id, patient).value;
      FindBillFramed(db.billings, once.db.billings, id, patient, k);
      assert once.db.billings[k := once.db.billings[k].(isPaid := true)] == once.db.billings;
    }
  }

  /** Changing a bill's paid flag does not move the position where its
      key is found. */
  lemma {:induction false} FindBillFramed(bills: seq<Billing>, bills': seq<Billing>, id: nat, patient: nat, k: nat)
    requires FindBill(bills, id, patient) == Some(k)
    requires |bills'| == |bills|
    requires bills'[k] == bills[k].(isPaid := true)
    requires forall j :: 0 <= j < |bills| && j != k ==> bills'[j] == bills[j]
    ensures FindBill(bills', id, patient) == Some(k)
  {
    if k > 0 {
      assert FindBill(bills[1..], id, patient) == Some(k - 1);
      FindBillFramed(bills[1..], bills'[1..], id, patient, k - 1);
    }
  }
}

=== FILE: calendar.dfy ===
/** Times of day and calendar dates as the scheduling rules use them.

    A time of day is a whole number of minutes since midnight.  A date is
    a valid day of the proleptic Gregorian calendar (years 1 to 9999, the
    range of the host language's date type); its day number and weekday
    are computed the way that date type computes them: day 1 is
    0001-01-01 and weekday 0 is Monday. */
module Calendar {

  const MinutesPerDay: int := 1440

  /** Minutes since midnight, 00:00 to 23:59. */
  type Time = m: int | 0 <= m < MinutesPerDay

  /** The clock time `n` minutes after `t`, wrapping past midnight: the
      time part of (date, t) plus n minutes. */
  function ClockAdd(t: Time, n: nat): (r: Time)
    ensures (t + n - r) % MinutesPerDay == 0
    ensures t + n < MinutesPerDay ==> r == t + n
    ensures MinutesPerDay <= t + n < 2 * MinutesPerDay ==> r == t + n - MinutesPerDay
  {
    (t + n) % MinutesPerDay
  }

  datatype CivilDate = CivilDate(year: int, month: int, day: int)

  predicate IsLeapYear(y: int) {
    y % 4 == 0 && (y % 100 != 0 || y % 400 == 0)
  }

  function DaysInMonth(y: int, m: int): (r: int)
    requires 1 <= m <= 12
    ensures 28 <= r <= 31
    ensures r == 29 <==> m == 2 && IsLeapYear(y)
  {
    if m == 2 then (if IsLeapYear(y) then 29 else 28)
    else if m == 4 || m == 6 || m == 9 || m == 11 then 30
    else 31
  }

  predicate ValidDate(d: CivilDate) {
    && 1 <= d.year <= 9999
    && 1 <= d.month <= 12
    && 1 <= d.day <= DaysInMonth(d.year, d.month)
  }

  type Date = d: CivilDate | ValidDate(d) witness CivilDate(1, 1, 1)

  /** The last date the host language's date type can represent. */
  const LastDate: Date := CivilDate(9999, 12, 31)

  /** Whether adding `n` minutes to time `t` on `date` leaves the range of
      representable date-times, which the host language reports with an
      overflow error: only on the last date, and only past its midnight. */
  predicate AddOverflows(date: Date, t: int, n: nat) {
    date == LastDate && t + n >= MinutesPerDay
  }

  /** Chronological order of dates: by year, then month, then day. */
  predicate DateLt(a: CivilDate, b: CivilDate) {
    || a.year < b.year
    || (a.year == b.year && a.month < b.month)
    || (a.year == b.year && a.month == b.month && a.day < b.day)
  }

  predicate DateLe(a: CivilDate, b: CivilDate) {
    DateLt(a, b) || a == b
  }

  /** Days in the years before year `y`. */
  function DaysBeforeYear(y: int): (r: int)
    requires y >= 1
    ensures r >= 0
  {
    var p := y - 1;
    p * 365 + p / 4 - p / 100 + p / 400
  }

  /** Days in the months of year `y` before month `m`. */
  function DaysBeforeMonth(y: int, m: int): (r: int)
    requires 1 <= m <= 12
    ensures 0 <= r <= 31 * (m - 1)
    decreases m
  {
    if m == 1 then 0 else DaysBeforeMonth(y, m - 1) + DaysInMonth(y, m - 1)
  }

  function DaysInYear(y: int): int {
    if IsLeapYear(y) then 366 else 365
  }

  /** The day number of a date, 0001-01-01 being day 1. */
  function Ordinal(d: Date): (r: int)
    ensures r >= 1
  {
    DaysBeforeYear(d.year) + DaysBeforeMonth(d.year, d.month) + d.day
  }

  /** The day of the week of a date, 0 for Monday through 6 for Sunday. */
  function Weekday(d: Date): (r: int)
    ensures 0 <= r < 7
  {
    (Ordinal(d) + 6) % 7
  }

  /** The leap-day counts step up by one exactly at multiples of 4, 100
      and 400. */
  lemma LeapCountsStep(p: int)
    requires p >= 0
    ensures (p + 1) / 4 == p / 4 + (if (p + 1) % 4 == 0 then 1 else 0)
    ensures (p + 1) / 100 == p / 100 + (if (p + 1) % 100 == 0 then 1 else 0)
    ensures (p + 1) / 400 == p / 400 + (if (p + 1) % 400 == 0 then 1 else 0)
  {
  }

  lemma YearLength(y: int)
    requires y >= 1
    ensures DaysBeforeYear(y + 1) == DaysBeforeYear(y) + DaysInYear(y)
  {
    var p := y - 1;
    LeapCountsStep(p);
    assert DaysBeforeYear(y + 1) - DaysBeforeYear(y)
           == 365 + (y / 4 - p / 4) - (y / 100 - p / 100) + (y / 400 - p / 400);
    if y % 400 == 0 {
      Multiple400Is100(y);
      Multiple100Is4(y);
      assert IsLeapYear(y);
    } else if y % 100 == 0 {
      Multiple100Is4(y);
      assert !IsLeapYear(y);
    } else if y % 4 == 0 {
      assert IsLeapYear(y);
    } else {
      assert !IsLeapYear(y);
    }
  }

  /** A multiple of 400 is a multiple of 100. */
  lemma Multiple400Is100(y: int)
    requires y % 400 == 0
    ensures y % 100 == 0
  {
    var k := y / 400;
    assert y == 400 * k;
    assert y == 100 * (4 * k);
  }

  /** A multiple of 100 is a multiple of 4. */
  lemma Multiple100Is4(y: int)
    requires y % 100 == 0
    ensures y % 4 == 0
  {
    var k := y / 100;
    assert y == 100 * k;
    assert y == 4 * (25 * k);
  }

  lemma {:induction false} MonthsFillYear(y: int, m: int)
    requires 1 <= m <= 12
    ensures DaysBeforeMonth(y, m) + DaysInMonth(y, m) <= DaysInYear(y)
    ensures m < 12 ==> DaysBeforeMonth(y, m + 1) == DaysBeforeMonth(y, m) + DaysInMonth(y, m)
    decreases m
  {
    if m > 1 {
      MonthsFillYear(y, m - 1);
    }
  }

  lemma {:induction false} MonthsIncrease(y: int, m1: int, m2: int)
    requires 1 <= m1 < m2 <= 12
    ensures DaysBeforeMonth(y, m1) + DaysInMonth(y, m1) <= DaysBeforeMonth(y, m2)
    decreases m2 - m1
  {
    MonthsFillYear(y, m1);
    if m1 + 1 < m2 {
      MonthsIncrease(y, m1 + 1, m2);
      MonthsFillYear(y, m1 + 1);
    }
  }

  lemma {:induction false} YearsIncrease(y1: int, y2: int)
    requires 1 <= y1 < y2
    ensures DaysBeforeYear(y1) + DaysInYear(y1) <= DaysBeforeYear(y2)
    decreases y2 - y1
  {
    YearLength(y1);
    if y1 + 1 < y2 {
      YearsIncrease(y1 + 1, y2);
    }
  }

  /** The day number orders dates exactly as the calendar does, so a date
      may be read as a day number without changing any comparison. */
  lemma OrdinalOrdersDates(a: Date, b: Date)
    ensures DateLt(a, b) <==> Ordinal(a) < Ordinal(b)
    ensures a == b <==> Ordinal(a) == Ordinal(b)
  {
    if a.year < b.year {
      YearsIncrease(a.year, b.year);
      MonthsFillYear(a.year, a.month);
    } else if b.year < a.year {
      YearsIncrease(b.year, a.year);
      MonthsFillYear(b.year, b.month);
    } else if a.month < b.month {
      MonthsIncrease(a.year, a.month, b.month);
    } else if b.month < a.month {
      MonthsIncrease(a.year, b.month, a.month);
    }
  }
}

=== FILE: consultation.dfy ===
/** The doctor's side of a visit: completing today's appointment with a
    diagnosis note and a prescription, and the patient's age shown on the
    patient's record. */
module Consultation {
  import opened Base
  import opened Calendar
  import opened Accounts
  import opened DoctorModels
  import opened PatientModels
  import opened Store

  /** The value of the submit button that completes an appointment. */
  const CompleteAction: string := "add_diagnosis_and_prescription"

  /** The fields of the completion form as submitted. */
  datatype Submission = Submission(
    action: Option<string>,
    note: Option<string>,
    medicine: Option<string>,
    dosage: Option<string>,
    instructions: Option<string>)

  datatype Refusal = NoSuchAppointment | NotToday | NotSubmitted | FieldsMissing

  /** The position of the doctor's appointment with key `id`, if any. */
  function FindAppointment(appointments: seq<Appointment>, id: nat, doctor: nat): (r: Option<nat>)
    ensures r.Some? ==>
              (r.value < |appointments| && appointments[r.value].id == id && appointments[r.value].doctor == doctor)
    ensures r.None? ==> forall a :: a in appointments ==> !(a.id == id && a.doctor == doctor)
  {
    if appointments == [] then None
    else if appointments[0].id == id && appointments[0].doctor == doctor then Some(0)
    else match FindAppointment(appointments[1..], id, doctor)
      case None => None
      case Some(k) => Some(k + 1)
  }

  function MedicationsNamed(medications: seq<Medication>, name: string): (r: seq<Medication>)
    ensures forall m :: m in r <==> m in medications && m.name == name
    ensures forall m :: multiset(r)[m] == if m.name == name then multiset(medications)[m] else 0
  {
    FilterCounts(medications, (m: Medication) => m.name == name);
    Filter(medications, (m: Medication) => m.name == name)
  }

  /** The medication called `name`: the one on file, or a new one with
      empty description and interactions under the next key. */
  function GetOrCreateMedication(db: Db, name: string): (r: Lookup<(Db, nat)>)
    ensures !r.NotFound?
    ensures r.Multiple? <==> |MedicationsNamed(db.medications, name)| >= 2
    ensures |MedicationsNamed(db.medications, name)| == 1 ==>
              r == Found((db, MedicationsNamed(db.medications, name)[0].id))
    ensures MedicationsNamed(db.medications, name) == [] ==>
              r == Found((db.(medications := db.medications + [Medication(db.nextMedication, name, "", "")],
                              nextMedication := db.nextMedication + 1),
                          db.nextMedication))
    ensures r.Found? ==> exists m :: m in r.row.0.medications && m.id == r.row.1 && m.name == name
  {
    var named := MedicationsNamed(db.medications, name);
    match LookupOf(named)
    case Multiple => Multiple
    case Found(m) =>
      assert m in named;
      Found((db, m.id))
    case NotFound =>
      var m := Medication(db.nextMedication, name, "", "");
      var d := db.(medications := db.medications + [m], nextMedication := db.nextMedication + 1);
      assert m in d.medications;
      Found((d, m.id))
  }

  /** The text `instructions or ''` gives. */
  function OrEmpty(v: Option<string>): (r: string)
    ensures v.Some? ==> r == v.value
    ensures v.None? ==> r == ""
  {
    if v.Some? then v.value else ""
  }

  /** Whether a submission asks for completion with every required field
      non-empty. */
  predicate Complete(verb: Method, form: Submission) {
    && verb.Post?
    && form.action == Some(CompleteAction)
    && Given(form.note) && Given(form.medicine) && Given(form.dosage)
  }

  /** The completion view.  It finds the doctor's appointment, refuses
      one not dated `today`, and on a complete submission adds the note,
      gets or creates the medication by name, adds the prescription and
      marks the appointment completed. */
  function CompleteAppointment(db: Db, doctor: nat, id: nat, today: Date, verb: Method, form: Submission): (r: Outcome<Refusal>)
    ensures FindAppointment(db.appointments, id, doctor).None? ==> r == Refused(NoSuchAppointment, db)
    ensures r.Refused? ==> r.db == db
    ensures (FindAppointment(db.appointments, id, doctor).Some?
             && SlotById(db.slots, db.appointments[FindAppointment(db.appointments, id, doctor).value].slot).Some?
             && SlotById(db.slots, db.appointments[FindAppointment(db.appointments, id, doctor).value].slot).value.date != today)
            ==> r == Refused(NotToday, db)
    ensures !Complete(verb, form) ==> r.db == db
    ensures r.Done? <==>
              && FindAppointment(db.appointments, id, doctor).Some?
              && var a := db.appointments[FindAppointment(db.appointments, id, doctor).value];
                 && SlotById(db.slots, a.slot).Some? && SlotById(db.slots, a.slot).value.date == today
                 && Complete(verb, form)
                 && |MedicationsNamed(db.medications, form.medicine.value)| <= 1
    ensures r.Done? ==>
              var k := FindAppointment(db.appointments, id, doctor).value;
              var a := db.appointments[k];
              && r.db.notes == db.notes + [DiagnosisNote(a.patient, doctor, form.note.value)]
              && r.db.appointments == db.appointments[k := a.(status := Completed)]
              && |r.db.prescriptions| == |db.prescriptions| + 1
              && r.db.prescriptions[..|db.prescriptions|] == db.prescriptions
              && r.db.prescriptions[|db.prescriptions|]
                 == NewPrescription(a.patient, doctor, r.db.prescriptions[|db.prescriptions|].medication,
                                    form.dosage.value, OrEmpty(form.instructions))
    ensures r.Done? ==>
              var p := r.db.prescriptions[|db.prescriptions|];
              exists m :: m in r.db.medications && m.id == p.medication && m.name == form.medicine.value
    ensures r.Done? ==>
              if MedicationsNamed(db.medications, form.medicine.value) == []
              then r.db.medications == db.medications + [Medication(db.nextMedication, form.medicine.value, "", "")]
                   && r.db.nextMedication == db.nextMedication + 1
              else r.db.medications == db.medications && r.db.nextMedication == db.nextMedication
    ensures r.db.(notes := db.notes, prescriptions := db.prescriptions, appointments := db.appointments,
                  medications := db.medications, nextMedication := db.nextMedication) == db
    ensures (r.Crashed? && r.ex == MultipleObjectsReturned) ==>
              && Complete(verb, form)
              && FindAppointment(db.appointments, id, doctor).Some?
              && var a := db.appointments[FindAppointment(db.appointments, id, doctor).value];
                 r.db == db.(notes := db.notes + [DiagnosisNote(a.patient, doctor, form.note.value)])
    ensures (r.Crashed? && r.ex == RelatedObjectDoesNotExist) ==> r.db == db
  {
    match FindAppointment(db.appointments, id, doctor)
    case None => Refused(NoSuchAppointment, db)
    case Some(k) =>
      var a := db.appointments[k];
      match SlotById(db.slots, a.slot)
      case None => Crashed(RelatedObjectDoesNotExist, db)
      case Some(s) =>
        if s.date != today then Refused(NotToday, db)
        else if !(verb.Post? && form.action == Some(CompleteAction)) then Refused(NotSubmitted, db)
        else if !(Given(form.note) && Given(form.medicine) && Given(form.dosage)) then Refused(FieldsMissing, db)
        else
          var d1 := db.(notes := db.notes + [DiagnosisNote(a.patient, doctor, form.note.value)]);
          match GetOrCreateMedication(d1, form.medicine.value)
          case Multiple => Crashed(MultipleObjectsReturned, d1)
          case Found((d2, m)) =>
            var p := NewPrescription(a.patient, doctor, m, form.dosage.value, OrEmpty(form.instructions));
            Done(d2.(prescriptions := d2.prescriptions + [p],
                     appointments := d2.appointments[k := a.(status := Completed)]))
  }

  /** Changing one appointment's status to one that is not booked keeps
      the store's invariants. */
  lemma SetStatusKeepsInvariants(db: Db, k: nat, st: Status)
    requires WellFormed(db) && DoctorsAgree(db) && AtMostOneBooked(db)
    requires k < |db.appointments| && !st.Booked?
    ensures var d := db.(appointments := db.appointments[k := db.appointments[k].(status := st)]);
            WellFormed(d) && DoctorsAgree(d) && AtMostOneBooked(d)
  {
    var d := db.(appointments := db.appointments[k := db.appointments[k].(status := st)]);
    forall b | b in d.appointments
      ensures exists i :: 0 <= i < |db.appointments| && b == db.appointments[i].(status := b.status)
    {
      var i :| 0 <= i < |d.appointments| && d.appointments[i] == b;
    }
    assert SlotsExist(d) by {
      forall b | b in d.appointments ensures exists s :: s in d.slots && s.id == b.slot {
        var i :| 0 <= i < |db.appointments| && b == db.appointments[i].(status := b.status);
        assert db.appointments[i] in db.appointments;
      }
    }
    assert DoctorsAgree(d) by {
      forall b, s | b in d.appointments && s in d.slots && s.id == b.slot
        ensures b.doctor == s.doctor
      {
        var i :| 0 <= i < |db.appointments| && b == db.appointments[i].(status := b.status);
        assert db.appointments[i] in db.appointments;
      }
    }
  }

  /** Completion keeps the store well formed, keeps each appointment with
      its slot's doctor, and books nothing new. */
  lemma CompletionKeepsInvariants(db: Db, doctor: nat, id: nat, today: Date, verb: Method, form: Submission)
    requires WellFormed(db) && DoctorsAgree(db) && AtMostOneBooked(db)
    ensures var r := CompleteAppointment(db, doctor, id, today, verb, form);
            WellFormed(r.db) && DoctorsAgree(r.db) && AtMostOneBooked(r.db)
  {
    var r := CompleteAppointment(db, doctor, id, today, verb, form);
    if r.Done? {
      var k := FindAppointment(db.appointments, id, doctor).value;
      SetStatusKeepsInvariants(db, k, Completed);
      var d := db.(appointments := db.appointments[k := db.appointments[k].(status := Completed)]);
      assert r.db.(notes := d.notes, prescriptions := d.prescriptions,
                   medications := d.medications, nextMedication := d.nextMedication) == d;
    }
  }

  /** Completing twice leaves the appointment completed: the status
      change does not depend on the status before. */
  lemma CompletionSetsStatus(db: Db, doctor: nat, id: nat, today: Date, verb: Method, form: Submission)
    requires CompleteAppointment(db, doctor, id, today, verb, form).Done?
    ensures var r := CompleteAppointment(db, doctor, id, today, verb, form);
            var k := FindAppointment(db.appointments, id, doctor).value;
            && r.db.appointments[k].status == Completed
            && FindAppointment(r.db.appointments, id, doctor) == Some(k)
            && (CompleteAppointment(r.db, doctor, id, today, verb, form).Done?
                ==> CompleteAppointment(r.db, doctor, id, today, verb, form).db.appointments == r.db.appointments)
  {
    var r := CompleteAppointment(db, doctor, id, today, verb, form);
    var k := FindAppointment(db.appointments, id, doctor).value;
    FindAppointmentFramed(db.appointments, r.db.appointments, id, doctor, k);
  }

  /** Changing an appointment's status does not move the position where
      its key is found. */
  lemma {:induction false} FindAppointmentFramed(s: seq<Appointment>, s': seq<Appointment>, id: nat, doctor: nat, k: nat)
    requires FindAppointment(s, id, doctor) == Some(k)
    requires |s'| == |s|
    requires s'[k] == s[k].(status := s'[k].status)
    requires forall j :: 0 <= j < |s| && j != k ==> s'[j] == s[j]
    ensures FindAppointment(s', id, doctor) == Some(k)
  {
    if k > 0 {
      assert FindAppointment(s[1..], id, doctor) == Some(k - 1);
      FindAppointmentFramed(s[1..], s'[1..], id, doctor, k - 1);
    }
  }

  // ---------------------------------------------------------------
  // The patient's age
  // ---------------------------------------------------------------

  /** (month, day) of `a` comes before (month, day) of `b`. */
  predicate MonthDayBefore(a: CivilDate, b: CivilDate) {
    a.month < b.month || (a.month == b.month && a.day < b.day)
  }

  /** Age in whole years on `today` of someone born on `dob`: the year
      difference, one less before this year's birthday. */
  function Age(dob: Date, today: Date): (r: int)
    ensures r == today.year - dob.year - 1 <==> MonthDayBefore(today, dob)
    ensures r == today.year - dob.year <==> !MonthDayBefore(today, dob)
    ensures r >= 0 <==> DateLe(dob, today)
  {
    today.year - dob.year - (if MonthDayBefore(today, dob) then 1 else 0)
  }

  /** The `n`-th birthday of `dob`, as (year, month, day), is not after
      `today`; a 29 February birthday counts in the same place in a
      common year. */
  predicate BirthdayReached(dob: Date, today: Date, n: int) {
    || dob.year + n < today.year
    || (dob.year + n == today.year && !MonthDayBefore(today, dob))
  }

  /** The age counts the birthdays reached: the `n`-th has been reached
      exactly when `n` is at most the age. */
  lemma AgeCountsBirthdays(dob: Date, today: Date, n: int)
    ensures BirthdayReached(dob, today, n) <==> n <= Age(dob, today)
  {
  }

  /** The age on the patient's record: none without a date of birth. */
  function RecordAge(dob: Option<Date>, today: Date): (r: Option<int>)
    ensures r.None? <==> dob.None?
    ensures r.Some? ==> r.value == Age(dob.value, today)
  {
    if dob.None? then None else Some(Age(dob.value, today))
  }
}

=== FILE: doctor_models.dfy ===
/** The doctor-side records: weekly availability rows with their day
    codes, medications, prescriptions and diagnosis notes. */
module DoctorModels {
  import opened Base
  import opened Calendar

  /** The seven day-of-week choices of an availability row. */
  datatype Day = Mon | Tue | Wed | Thu | Fri | Sat | Sun

  const AllDays: set<Day> := {Mon, Tue, Wed, Thu, Fri, Sat, Sun}

  /** The stored three-letter code of a day. */
  function Code(d: Day): string {
    match d
    case Mon => "mon"
    case Tue => "tue"
    case Wed => "wed"
    case Thu => "thu"
    case Fri => "fri"
    case Sat => "sat"
    case Sun => "sun"
  }

  /** Reads a stored code back; anything outside the seven choices is
      not a day. */
  function FromCode(s: string): (r: Option<Day>)
    ensures r.Some? ==> Code(r.value) == s
  {
    if s == "mon" then Some(Mon)
    else if s == "tue" then Some(Tue)
    else if s == "wed" then Some(Wed)
    else if s == "thu" then Some(Thu)
    else if s == "fri" then Some(Fri)
    else if s == "sat" then Some(Sat)
    else if s == "sun" then Some(Sun)
    else None
  }

  /** Every day has a code of at most three letters that reads back as
      that day, and no two days share a code. */
  lemma CodesRoundTrip(d: Day, e: Day)
    ensures FromCode(Code(d)) == Some(d)
    ensures |Code(d)| <= 3
    ensures Code(d) == Code(e) ==> d == e
  {
  }

  lemma AllDaysAreSeven(d: Day)
    ensures d in AllDays
    ensures |AllDays| == 7
  {
  }

  /** Position of a day in the week, Monday first. */
  function WeekIndex(d: Day): (r: int)
    ensures 0 <= r < 7
  {
    match d
    case Mon => 0
    case Tue => 1
    case Wed => 2
    case Thu => 3
    case Fri => 4
    case Sat => 5
    case Sun => 6
  }

  /** The day code of a date: its abbreviated English weekday name in
      lower case. */
  function DayOf(date: Date): (r: Day)
    ensures WeekIndex(r) == Weekday(date)
  {
    var w := Weekday(date);
    if w == 0 then Mon
    else if w == 1 then Tue
    else if w == 2 then Wed
    else if w == 3 then Thu
    else if w == 4 then Fri
    else if w == 5 then Sat
    else Sun
  }

  lemma DayOfExample()
    ensures DayOf(CivilDate(2026, 10, 11)) == Sun
    ensures DayOf(CivilDate(2024, 2, 29)) == Thu
  {
  }

  /** One weekly availability row: on `day`, `doctor` works from `start`
      to `end`.  The table is unique on all four fields, so a set of rows
      is an exact picture of it; nothing ties start to end, and a doctor
      may hold several rows for one day. */
  datatype Availability = Availability(doctor: nat, day: Day, start: Time, end: Time)

  /** Strict lexicographic order on strings. */
  predicate StrLt(a: string, b: string)
    decreases |a|
  {
    if |a| == 0 then |b| > 0
    else if |b| == 0 then false
    else if a[0] != b[0] then a[0] < b[0]
    else StrLt(a[1..], b[1..])
  }

  /** The table's default order: by the stored day code as a string. */
  predicate CodeBefore(a: Day, b: Day) {
    StrLt(Code(a), Code(b))
  }

  /** Position of a day's code in alphabetical order. */
  function CodeRank(d: Day): (r: int)
    ensures 0 <= r < 7
  {
    match d
    case Fri => 0
    case Mon => 1
    case Sat => 2
    case Sun => 3
    case Thu => 4
    case Tue => 5
    case Wed => 6
  }

  /** The default order is alphabetical by code -- fri, mon, sat, sun,
      thu, tue, wed -- and so not the order of the week. */
  lemma CodeBeforeIsRank(a: Day, b: Day)
    ensures CodeBefore(a, b) <==> CodeRank(a) < CodeRank(b)
    ensures CodeBefore(Fri, Mon) && WeekIndex(Mon) < WeekIndex(Fri)
  {
  }

  /** The default order compares codes exactly as their ranks do, for
      every pair of days. */
  lemma CodeOrderIsRank()
    ensures forall a: Day, b: Day :: CodeBefore(a, b) <==> CodeRank(a) < CodeRank(b)
  {
    forall a: Day, b: Day ensures CodeBefore(a, b) <==> CodeRank(a) < CodeRank(b) {
      CodeBeforeIsRank(a, b);
    }
  }

  datatype Medication = Medication(id: nat, name: string, description: string, interactions: string)

  datatype DiagnosisNote = DiagnosisNote(patient: nat, doctor: nat, note: string)

  datatype Prescription = Prescription(
    patient: nat, doctor: nat, medication: nat,
    dosage: string, instructions: string, status: string)

  const DefaultPrescriptionStatus: string := "Pending"

  /** A prescription as created: its status starts as the default. */
  function NewPrescription(patient: nat, doctor: nat, medication: nat,
                           dosage: string, instructions: string): (p: Prescription)
    ensures p.status == "Pending"
    ensures p.patient == patient && p.doctor == doctor && p.medication == medication
    ensures p.dosage == dosage && p.instructions == instructions
  {
    Prescription(patient, doctor, medication, dosage, instructions, DefaultPrescriptionStatus)
  }
}

=== FILE: listings.dfy ===
/** The appointment and schedule listings: the doctor's full, today's and
    upcoming lists with the dashboard's counts, the patient's upcoming and
    past lists, and the list of all doctors' slots.  Each is a selection
    from the store put in (date, start) order. */
module Listings {
  import opened Base
  import opened Calendar
  import opened Accounts
  import opened PatientModels
  import opened Store

  /** The sort key of a slot: its date, then its start time. */
  datatype Key = Key(date: Date, start: Time)

  function SlotKey(s: TimeSlot): Key {
    Key(s.date, s.start)
  }

  predicate KeyLe(a: Key, b: Key) {
    DateLt(a.date, b.date) || (a.date == b.date && a.start <= b.start)
  }

  /** The key order is a total preorder. */
  lemma KeyLeIsTotalPreorder(a: Key, b: Key, c: Key)
    ensures KeyLe(a, a)
    ensures KeyLe(a, b) || KeyLe(b, a)
    ensures KeyLe(a, b) && KeyLe(b, c) ==> KeyLe(a, c)
  {
  }

  predicate Ascending<T(!new)>(s: seq<T>, key: T -> Key) {
    forall i, j :: 0 <= i < j < |s| ==> KeyLe(key(s[i]), key(s[j]))
  }

  predicate Descending<T(!new)>(s: seq<T>, key: T -> Key) {
    forall i, j :: 0 <= i < j < |s| ==> KeyLe(key(s[j]), key(s[i]))
  }

  /** Putting an element before an ascending sequence whose first key
      is no smaller keeps it ascending. */
  lemma ConsAscending<T(!new)>(x: T, s: seq<T>, key: T -> Key)
    requires Ascending(s, key)
    requires s != [] ==> KeyLe(key(x), key(s[0]))
    ensures Ascending([x] + s, key)
  {
    var r := [x] + s;
    forall i, j | 0 <= i < j < |r| ensures KeyLe(key(r[i]), key(r[j])) {
      if i == 0 && j > 1 {
        KeyLeIsTotalPreorder(key(x), key(s[0]), key(s[j - 1]));
      }
    }
  }

  /** Puts `x` into the ascending sequence `s` before the first element
      whose key is greater. */
  function Insert<T(!new)>(x: T, s: seq<T>, key: T -> Key): (r: seq<T>)
    requires Ascending(s, key)
    ensures Ascending(r, key)
    ensures multiset(r) == multiset(s) + multiset{x}
    ensures forall y :: y in r <==> y == x || y in s
    ensures |r| == |s| + 1
    ensures r[0] == x || (s != [] && r[0] == s[0])
  {
    if s == [] then [x]
    else if KeyLe(key(x), key(s[0])) then
      ConsAscending(x, s, key);
      [x] + s
    else
      var rest := Insert(x, s[1..], key);
      KeyLeIsTotalPreorder(key(x), key(s[0]), key(s[0]));
      ConsAscending(s[0], rest, key);
      assert s == [s[0]] + s[1..];
      [s[0]] + rest
  }

  /** Insertion sort by key: an ascending permutation of `s`. */
  function SortBy<T(!new)>(s: seq<T>, key: T -> Key): (r: seq<T>)
    ensures Ascending(r, key)
    ensures multiset(r) == multiset(s)
    ensures forall y :: y in r <==> y in s
    ensures |r| == |s|
  {
    if s == [] then []
    else
      assert s == [s[0]] + s[1..];
      Insert(s[0], SortBy(s[1..], key), key)
  }

  function Reverse<T(!new)>(s: seq<T>): (r: seq<T>)
    ensures |r| == |s|
    ensures forall i :: 0 <= i < |s| ==> r[i] == s[|s| - 1 - i]
    ensures multiset(r) == multiset(s)
    ensures forall y :: y in r <==> y in s
  {
    if s == [] then []
    else
      assert s == [s[0]] + s[1..];
      Reverse(s[1..]) + [s[0]]
  }

  /** Reversing an ascending sequence gives a descending one. */
  lemma ReverseDescends<T(!new)>(s: seq<T>, key: T -> Key)
    requires Ascending(s, key)
    ensures Descending(Reverse(s), key)
  {
    var r := Reverse(s);
    forall i, j | 0 <= i < j < |r| ensures KeyLe(key(r[j]), key(r[i])) {
      assert r[i] == s[|s| - 1 - i] && r[j] == s[|s| - 1 - j];
    }
  }

  // ---------------------------------------------------------------
  // Appointments joined with their slots
  // ---------------------------------------------------------------

  /** An appointment with the slot it points at. */
  datatype Row = Row(appointment: Appointment, slot: TimeSlot)

  function RowKey(r: Row): Key {
    SlotKey(r.slot)
  }

  /** Each appointment joined with its slot, in the appointments' order. */
  function Join(appointments: seq<Appointment>, slots: seq<TimeSlot>): (r: seq<Row>)
    ensures forall x :: x in r <==>
              x.appointment in appointments && SlotById(slots, x.appointment.slot) == Some(x.slot)
    ensures |r| <= |appointments|
  {
    if appointments == [] then []
    else
      var a := appointments[0];
      var rest := Join(appointments[1..], slots);
      match SlotById(slots, a.slot)
      case None => rest
      case Some(s) => [Row(a, s)] + rest
  }

  /** In a well-formed store the join drops no appointment. */
  lemma {:induction false} JoinKeepsEvery(appointments: seq<Appointment>, slots: seq<TimeSlot>)
    requires forall a :: a in appointments ==> exists s :: s in slots && s.id == a.slot
    ensures |Join(appointments, slots)| == |appointments|
  {
    if appointments != [] {
      var s :| s in slots && s.id == appointments[0].slot;
      assert SlotById(slots, appointments[0].slot).Some?;
      JoinKeepsEvery(appointments[1..], slots);
    }
  }

  /** The five appointment lists. */
  datatype Query =
    | DoctorAll(doctor: nat)
    | DoctorToday(doctor: nat)
    | DoctorUpcoming(doctor: nat)
    | PatientUpcoming(patient: nat)
    | PatientPast(patient: nat)

  predicate Matches(q: Query, today: Date, x: Row) {
    match q
    case DoctorAll(d) => x.appointment.doctor == d
    case DoctorToday(d) => x.appointment.doctor == d && x.slot.date == today
    case DoctorUpcoming(d) => x.appointment.doctor == d && DateLt(today, x.slot.date)
    case PatientUpcoming(p) =>
      x.appointment.patient == p && !DateLt(x.slot.date, today) && x.appointment.status == Booked
    case PatientPast(p) => x.appointment.patient == p && DateLt(x.slot.date, today)
  }

  /** The rows a query selects, in the order given. */
  function Select(rows: seq<Row>, q: Query, today: Date): (r: seq<Row>)
    ensures forall x :: x in r <==> x in rows && Matches(q, today, x)
    ensures |r| <= |rows|
  {
    if rows == [] then []
    else if Matches(q, today, rows[0]) then [rows[0]] + Select(rows[1..], q, today)
    else Select(rows[1..], q, today)
  }

  /** A list as the views show it: the patient's past list latest first,
      every other list earliest first. */
  function Listing(db: Db, q: Query, today: Date): (r: seq<Row>)
    ensures multiset(r) == multiset(Select(Join(db.appointments, db.slots), q, today))
    ensures forall x :: x in r <==>
              && x.appointment in db.appointments
              && SlotById(db.slots, x.appointment.slot) == Some(x.slot)
              && Matches(q, today, x)
    ensures q.PatientPast? ==> Descending(r, RowKey)
    ensures !q.PatientPast? ==> Ascending(r, RowKey)
  {
    var sorted := SortBy(Select(Join(db.appointments, db.slots), q, today), RowKey);
    if q.PatientPast? then
      ReverseDescends(sorted, RowKey);
      Reverse(sorted)
    else sorted
  }

  /** Today's list is in start-time order. */
  lemma TodayByStart(db: Db, doctor: nat, today: Date)
    ensures var r := Listing(db, DoctorToday(doctor), today);
            forall i, j :: 0 <= i < j < |r| ==> r[i].slot.start <= r[j].slot.start
  {
    var r := Listing(db, DoctorToday(doctor), today);
    forall i, j | 0 <= i < j < |r| ensures r[i].slot.start <= r[j].slot.start {
      assert r[i] in r && r[j] in r;
      assert KeyLe(RowKey(r[i]), RowKey(r[j]));
    }
  }

  /** Today's and the upcoming rows are disjoint parts of all the
      doctor's rows, so their counts add up to at most the full count. */
  lemma {:induction false} SelectCountsSplit(rows: seq<Row>, doctor: nat, today: Date)
    ensures |Select(rows, DoctorToday(doctor), today)| + |Select(rows, DoctorUpcoming(doctor), today)|
            <= |Select(rows, DoctorAll(doctor), today)|
  {
    if rows != [] {
      SelectCountsSplit(rows[1..], doctor, today);
    }
  }

  /** The dashboard's counts: today's plus upcoming never exceed all of
      the doctor's appointments. */
  lemma DashboardCounts(db: Db, doctor: nat, today: Date)
    ensures |Listing(db, DoctorToday(doctor), today)| + |Listing(db, DoctorUpcoming(doctor), today)|
            <= |Listing(db, DoctorAll(doctor), today)|
  {
    var rows := Join(db.appointments, db.slots);
    SelectCountsSplit(rows, doctor, today);
    assert |Listing(db, DoctorToday(doctor), today)| == |Select(rows, DoctorToday(doctor), today)| by {
      assert |multiset(Listing(db, DoctorToday(doctor), today))| == |multiset(Select(rows, DoctorToday(doctor), today))|;
    }
    assert |Listing(db, DoctorUpcoming(doctor), today)| == |Select(rows, DoctorUpcoming(doctor), today)| by {
      assert |multiset(Listing(db, DoctorUpcoming(doctor), today))| == |multiset(Select(rows, DoctorUpcoming(doctor), today))|;
    }
    assert |Listing(db, DoctorAll(doctor), today)| == |Select(rows, DoctorAll(doctor), today)| by {
      assert |multiset(Listing(db, DoctorAll(doctor), today))| == |multiset(Select(rows, DoctorAll(doctor), today))|;
    }
  }

  /** No appointment is on both of a patient's lists. */
  lemma PatientListsDisjoint(db: Db, patient: nat, today: Date, x: Row)
    ensures !(x in Listing(db, PatientUpcoming(patient), today) && x in Listing(db, PatientPast(patient), today))
  {
    var up := Listing(db, PatientUpcoming(patient), today);
    var past := Listing(db, PatientPast(patient), today);
    assert x in up ==> Matches(PatientUpcoming(patient), today, x);
    assert x in past ==> Matches(PatientPast(patient), today, x);
  }

  // ---------------------------------------------------------------
  // All doctors' slots
  // ---------------------------------------------------------------

  /** The slots of `slots` owned by a doctor, each as often as the
      table holds it. */
  function SelectDoctorSlots(db: Db, slots: seq<TimeSlot>): (r: seq<TimeSlot>)
    ensures forall s :: s in r <==> s in slots && IsDoctor(db, s.doctor)
    ensures forall t :: multiset(r)[t] == if IsDoctor(db, t.doctor) then multiset(slots)[t] else 0
    ensures |r| <= |slots|
  {
    if slots == [] then []
    else
      assert slots == [slots[0]] + slots[1..];
      if IsDoctor(db, slots[0].doctor) then [slots[0]] + SelectDoctorSlots(db, slots[1..])
      else SelectDoctorSlots(db, slots[1..])
  }

  /** Every doctor's slots, in (date, start) order: each slot of a doctor
      exactly as often as the table holds it, and no other. */
  function DoctorSchedules(db: Db): (r: seq<TimeSlot>)
    ensures forall s :: s in r <==> s in db.slots && IsDoctor(db, s.doctor)
    ensures forall t :: multiset(r)[t] == if IsDoctor(db, t.doctor) then multiset(db.slots)[t] else 0
    ensures |r| <= |db.slots|
    ensures Ascending(r, SlotKey)
  {
    var selected := SelectDoctorSlots(db, db.slots);
    var r := SortBy(selected, SlotKey);
    assert multiset(r) == multiset(selected);
    r
  }
}

=== FILE: patient_models.dfy ===
/** The patient-side records: bookable time slots, appointments with
    their status, and bills. */
module PatientModels {
  import opened Base
  import opened Calendar

  /** The three appointment statuses. */
  datatype Status = Booked | Cancelled | Completed

  function StatusCode(s: Status): string {
    match s
    case Booked => "booked"
    case Cancelled => "cancelled"
    case Completed => "completed"
  }

  function StatusFromCode(c: string): (r: Option<Status>)
    ensures r.Some? ==> StatusCode(r.value) == c
  {
    if c == "booked" then Some(Booked)
    else if c == "cancelled" then Some(Cancelled)
    else if c == "completed" then Some(Completed)
    else None
  }

  /** Each status is stored as a distinct code that fits the ten-character
      column and reads back as that status. */
  lemma StatusCodesRoundTrip(s: Status, t: Status)
    ensures StatusFromCode(StatusCode(s)) == Some(s)
    ensures |StatusCode(s)| <= 10
    ensures StatusCode(s) == StatusCode(t) ==> s == t
  {
  }

  const DefaultStatus: Status := Booked

  /** A concrete 30-minute unit of a doctor's day, created the first time
      someone books it.  The table is unique on (doctor, date, start, end)
      and ordered by (date, start). */
  datatype TimeSlot = TimeSlot(id: nat, doctor: nat, date: Date, start: Time, end: Time)

  /** Two slots collide on the table's uniqueness constraint. */
  predicate SameSlotKey(a: TimeSlot, b: TimeSlot) {
    a.doctor == b.doctor && a.date == b.date && a.start == b.start && a.end == b.end
  }

  datatype Appointment = Appointment(
    id: nat, patient: nat, doctor: nat, slot: nat,
    symptoms: Option<string>, status: Status)

  /** An appointment as created: its status starts as the default. */
  function NewAppointment(id: nat, patient: nat, doctor: nat, slot: nat,
                          symptoms: Option<string>): (a: Appointment)
    ensures a.status == Booked
    ensures a.id == id && a.patient == patient && a.doctor == doctor
    ensures a.slot == slot && a.symptoms == symptoms
  {
    Appointment(id, patient, doctor, slot, symptoms, DefaultStatus)
  }

  /** A bill; the amount is in hundredths of the currency unit. */
  datatype Billing = Billing(
    id: nat, patient: nat, amount: int, description: string,
    isPaid: bool, dueDate: Date)

  /** A bill as created: it starts unpaid. */
  function NewBilling(id: nat, patient: nat, amount: int, description: string,
                      dueDate: Date): (b: Billing)
    ensures !b.isPaid
    ensures b.id == id && b.patient == patient && b.amount == amount
    ensures b.description == description && b.dueDate == dueDate
  {
    Billing(id, patient, amount, description, false, dueDate)
  }
}

=== FILE: slots.dfy ===
/** The free-slot query: for a doctor and a date, the 30-minute start
    times a patient may still pick, derived from the doctor's weekly
    window for that weekday minus the starts already booked. */
module SlotGenerator {
  import opened Base
  import opened Calendar
  import opened Accounts
  import opened DoctorModels
  import opened PatientModels
  import opened Store
  import opened WeeklyAvailability

  const SlotMinutes: int := 30

  /** A query-string parameter: absent or empty, present but not
      readable, or read. */
  datatype Param<+T> = Missing | Malformed | Value(v: T)

  /** The query's answer: a list of start times, or an exception that
      escapes the view. */
  datatype SlotsReply = Slots(times: seq<Time>) | Failed(ex: Exception)

  /** Start times of the slots of `doctor`'s booked appointments on
      `date`; cancelled and completed appointments do not count. */
  function BookedStarts(db: Db, doctor: nat, date: Date): (r: set<Time>)
    ensures forall t :: t in r <==>
              exists a, s :: a in db.appointments && s in db.slots && s.id == a.slot
                && a.doctor == doctor && s.date == date && a.status == Booked && s.start == t
  {
    set a, s | a in db.appointments && s in db.slots && s.id == a.slot
                 && a.doctor == doctor && s.date == date && a.status.Booked? :: s.start
  }

  /** Whether the query offers start time `s` for a window starting at
      `start` and ending at `end`: the whole slot fits in the window, it
      lies on the 30-minute grid from `start`, it is not booked, and it is
      not before `earliest`. */
  predicate Offered(s: int, start: int, end: int, booked: set<Time>, earliest: int) {
    && start <= s
    && s + SlotMinutes <= end
    && (s - start) % SlotMinutes == 0
    && s !in booked
    && s >= earliest
  }

  /** The walk from `cur` in 30-minute steps while a whole slot still
      fits before `end`, keeping the steps that are neither before
      `earliest` nor booked. */
  function Walk(cur: nat, end: Time, booked: set<Time>, earliest: int): (r: seq<Time>)
    ensures forall i :: 0 <= i < |r| ==> cur <= r[i] && r[i] + SlotMinutes <= end
    ensures forall i, j :: 0 <= i < j < |r| ==> r[i] < r[j]
    decreases end - cur
  {
    if cur + SlotMinutes > end then []
    else
      var rest := Walk(cur + SlotMinutes, end, booked, earliest);
      if cur < earliest || cur in booked then rest else [cur] + rest
  }

  /** The walk offers exactly the grid starts that fit, are free and are
      not too early. */
  lemma {:induction false} WalkOffersExactly(cur: nat, end: Time, booked: set<Time>, earliest: int, s: int)
    ensures s in Walk(cur, end, booked, earliest) <==> Offered(s, cur, end, booked, earliest)
    decreases end - cur
  {
    if cur + SlotMinutes <= end {
      WalkOffersExactly(cur + SlotMinutes, end, booked, earliest, s);
      if s >= cur + SlotMinutes {
        assert (s - cur) % SlotMinutes == (s - (cur + SlotMinutes)) % SlotMinutes;
      } else if s > cur {
        assert (s - cur) % SlotMinutes != 0;
      }
    }
  }

  /** The start at which the walk stops: the first 30-minute step from
      `cur` whose slot no longer fits before `end`.  The loop evaluates
      `current + 30 minutes` once more at this point. */
  function WalkStop(cur: nat, end: Time): (r: nat)
    ensures cur <= r && (r - cur) % SlotMinutes == 0
    ensures r + SlotMinutes > end
    ensures cur + SlotMinutes > end ==> r == cur
    ensures cur + SlotMinutes <= end ==> r <= end
    decreases end - cur
  {
    if cur + SlotMinutes > end then cur
    else WalkStop(cur + SlotMinutes, end)
  }

  /** Every step before the stop still fits a whole slot, so the stop is
      the first step that does not. */
  lemma {:induction false} WalkStopIsFirstMisfit(cur: nat, end: Time, v: int)
    requires cur <= v < WalkStop(cur, end) && (v - cur) % SlotMinutes == 0
    ensures v + SlotMinutes <= end
    decreases end - cur
  {
    if v > cur {
      assert (v - (cur + SlotMinutes)) % SlotMinutes == 0;
      WalkStopIsFirstMisfit(cur + SlotMinutes, end, v);
    }
  }

  /** Whether the walk over a window from `start` to `end` on `date` runs
      past the last representable moment: the steps before the stop end
      by `end`, so only the final `current + 30 minutes` can overflow. */
  predicate WalkOverflows(date: Date, start: Time, end: Time) {
    AddOverflows(date, WalkStop(start, end), SlotMinutes)
  }

  /** A nine-to-eleven window with nothing booked offers 09:00, 09:30,
      10:00 and 10:30. */
  lemma NineToElevenExample()
    ensures Walk(540, 660, {}, 0) == [540, 570, 600, 630]
  {
  }

  /** The loop's skip test for times already past: the date is the
      current date and the start is before the current time. */
  predicate SkippedAsPast(date: Date, today: Date, now: Time, s: Time) {
    date == today && s < now
  }

  /** The earliest start the query may offer: the current time on the
      current date, otherwise midnight.  A start falls below it exactly
      when the loop skips it as past. */
  function Earliest(date: Date, today: Date, now: Time): (r: int)
    ensures date == today ==> r == now
    ensures date != today ==> r == 0
    ensures forall s: Time :: SkippedAsPast(date, today, now, s) <==> s < r
  {
    if date == today then now else 0
  }

  /** The free-slot query.  `today` and `now` are the server's current
      date and time, `now` rounded up to the whole minute and clamped at
      23:59.  Several windows for the weekday make the lookup fail; on the
      last representable date a walk whose stop lies within 30 minutes of
      midnight fails with an overflow error. */
  function AvailableSlots(db: Db, doctor: Option<nat>, date: Param<Date>, today: Date, now: Time): (r: SlotsReply)
    ensures (doctor.None? || !date.Value?) ==> r == Slots([])
    ensures date.Value? && DateLt(date.v, today) ==> r == Slots([])
    ensures doctor.Some? && !IsDoctor(db, doctor.value) ==> r == Slots([])
    ensures (doctor.Some? && date.Value? && WindowsFor(db.availability, doctor.value, DayOf(date.v)) == {})
              ==> r == Slots([])
    ensures r == Failed(MultipleObjectsReturned) <==>
              && doctor.Some? && date.Value? && !DateLt(date.v, today) && IsDoctor(db, doctor.value)
              && |WindowsFor(db.availability, doctor.value, DayOf(date.v))| >= 2
    ensures r == Failed(OverflowError) <==>
              && doctor.Some? && date.Value? && !DateLt(date.v, today) && IsDoctor(db, doctor.value)
              && Window(db.availability, doctor.value, DayOf(date.v)).Found?
              && var w := Window(db.availability, doctor.value, DayOf(date.v)).row;
                 WalkOverflows(date.v, w.start, w.end)
    ensures r.Failed? ==> r.ex == MultipleObjectsReturned || r.ex == OverflowError
    ensures r.Slots? ==> forall i, j :: 0 <= i < j < |r.times| ==> r.times[i] < r.times[j]
  {
    if doctor.None? || date.Missing? then Slots([])
    else if date.Malformed? then Slots([])
    else if DateLt(date.v, today) then Slots([])
    else if !IsDoctor(db, doctor.value) then Slots([])
    else
      match Window(db.availability, doctor.value, DayOf(date.v))
      case NotFound => Slots([])
      case Multiple => Failed(MultipleObjectsReturned)
      case Found(w) =>
        if WalkOverflows(date.v, w.start, w.end) then Failed(OverflowError)
        else Slots(Walk(w.start, w.end, BookedStarts(db, doctor.value, date.v), Earliest(date.v, today, now)))
  }

  /** What the query offers when it finds the doctor's one window for
      the day: a list exactly when the walk does not overflow, and then
      exactly the free grid starts of that window, never one whose slot
      overruns the window, and on the current date never one before the
      current time. */
  lemma AvailableSlotsOffers(db: Db, doctor: nat, date: Date, today: Date, now: Time, s: int)
    requires !DateLt(date, today) && IsDoctor(db, doctor)
    requires Window(db.availability, doctor, DayOf(date)).Found?
    ensures var w := Window(db.availability, doctor, DayOf(date)).row;
            AvailableSlots(db, Some(doctor), Value(date), today, now).Slots? <==> !WalkOverflows(date, w.start, w.end)
    ensures var w := Window(db.availability, doctor, DayOf(date)).row;
            var q := AvailableSlots(db, Some(doctor), Value(date), today, now);
            q.Slots? ==>
              (s in q.times
               <==> && w.start <= s && s + SlotMinutes <= w.end
                    && (s - w.start) % SlotMinutes == 0
                    && s !in BookedStarts(db, doctor, date)
                    && (date == today ==> s >= now))
  {
    var w := Window(db.availability, doctor, DayOf(date)).row;
    WalkOffersExactly(w.start, w.end, BookedStarts(db, doctor, date), Earliest(date, today, now), s);
  }

  /** Only the last representable date can overflow, and there a window
      reaching past 23:30 does: a Friday 23:00 to 23:59 window offers 23:00
      on an earlier Friday but fails on 9999-12-31. */
  lemma LastDateQueryOverflows()
    ensures forall date: Date, start: Time, end: Time :: date != LastDate ==> !WalkOverflows(date, start, end)
    ensures var w := Availability(1, Fri, 1380, 1439);
            var d := Db(map[1 := Doctor], {w}, [], 0, [], 0, [], [], 0, [], []);
            var today := CivilDate(2026, 10, 11);
            && DayOf(LastDate) == Fri
            && AvailableSlots(d, Some(1), Value(LastDate), today, 0) == Failed(OverflowError)
            && AvailableSlots(d, Some(1), Value(CivilDate(9999, 12, 24)), today, 0) == Slots([1380])
  {
    var w := Availability(1, Fri, 1380, 1439);
    var d := Db(map[1 := Doctor], {w}, [], 0, [], 0, [], [], 0, [], []);
    var earlier := CivilDate(9999, 12, 24);
    assert DayOf(earlier) == Fri;
    assert WindowsFor(d.availability, 1, Fri) == {w};
    assert Window(d.availability, 1, Fri) == Found(w);
    assert WalkStop(1380, 1439) == 1410;
    assert BookedStarts(d, 1, earlier) == {};
    assert Walk(1380, 1439, {}, 0) == [1380];
  }
}

=== FILE: store.dfy ===
/** The relational store the views read and write, with the integrity
    facts the database guarantees and the lookups the views perform.

    Tables other than availability are sequences in primary-key order;
    a new row takes the table's next key, as an auto-increment column
    does. */
module Store {
  import opened Base
  import opened Calendar
  import opened Accounts
  import opened DoctorModels
  import opened PatientModels

  /** What a writing view leaves behind: the state after success, after a
      refusal for reason `E`, or after an uncaught exception (writes made
      before the exception stay, as autocommit leaves them). */
  datatype Outcome<+E> =
    | Done(db: Db)
    | Refused(error: E, db: Db)
    | Crashed(ex: Exception, db: Db)

  datatype Db = Db(
    users: map<nat, Role>,
    availability: set<Availability>,
    slots: seq<TimeSlot>, nextSlot: nat,
    appointments: seq<Appointment>, nextAppointment: nat,
    notes: seq<DiagnosisNote>,
    medications: seq<Medication>, nextMedication: nat,
    prescriptions: seq<Prescription>,
    billings: seq<Billing>)

  predicate SlotKeysOrdered(db: Db) {
    && (forall i, j :: 0 <= i < j < |db.slots| ==> db.slots[i].id < db.slots[j].id)
    && (forall i :: 0 <= i < |db.slots| ==> db.slots[i].id < db.nextSlot)
  }

  predicate AppointmentKeysOrdered(db: Db) {
    && (forall i, j :: 0 <= i < j < |db.appointments| ==> db.appointments[i].id < db.appointments[j].id)
    && (forall i :: 0 <= i < |db.appointments| ==> db.appointments[i].id < db.nextAppointment)
  }

  predicate MedicationKeysOrdered(db: Db) {
    && (forall i, j :: 0 <= i < j < |db.medications| ==> db.medications[i].id < db.medications[j].id)
    && (forall i :: 0 <= i < |db.medications| ==> db.medications[i].id < db.nextMedication)
  }

  predicate BillingKeysDistinct(db: Db) {
    forall i, j :: 0 <= i < j < |db.billings| ==> db.billings[i].id != db.billings[j].id
  }

  /** No two slots share (doctor, date, start, end). */
  predicate UniqueSlots(slots: seq<TimeSlot>) {
    forall i, j :: 0 <= i < j < |slots| ==> !SameSlotKey(slots[i], slots[j])
  }

  /** Every appointment points at an existing slot (the foreign key). */
  predicate SlotsExist(db: Db) {
    forall a :: a in db.appointments ==> exists s :: s in db.slots && s.id == a.slot
  }

  /** What the database itself guarantees. */
  predicate WellFormed(db: Db) {
    && SlotKeysOrdered(db)
    && AppointmentKeysOrdered(db)
    && MedicationKeysOrdered(db)
    && BillingKeysDistinct(db)
    && UniqueSlots(db.slots)
    && SlotsExist(db)
  }

  /** An appointment is held by the doctor who owns its slot.  The
      database does not enforce this; the booking views keep it. */
  predicate DoctorsAgree(db: Db) {
    forall a, s :: a in db.appointments && s in db.slots && s.id == a.slot ==> a.doctor == s.doctor
  }

  /** At most one booked appointment per slot. */
  predicate AtMostOneBooked(db: Db) {
    forall i, j :: 0 <= i < j < |db.appointments|
      && db.appointments[i].slot == db.appointments[j].slot
      ==> !(db.appointments[i].status.Booked? && db.appointments[j].status.Booked?)
  }

  predicate IsDoctor(db: Db, id: nat) {
    id in db.users && db.users[id] == Doctor
  }

  /** The slot with primary key `id`, if any. */
  function SlotById(slots: seq<TimeSlot>, id: nat): (r: Option<TimeSlot>)
    ensures r.Some? ==> r.value in slots && r.value.id == id
    ensures r.None? ==> forall s :: s in slots ==> s.id != id
  {
    if slots == [] then None
    else if slots[0].id == id then Some(slots[0])
    else SlotById(slots[1..], id)
  }

  /** The slots of `doctor` on `date` that start at `start`, whatever
      their end. */
  function SlotsAt(slots: seq<TimeSlot>, doctor: nat, date: Date, start: Time): (r: seq<TimeSlot>)
    ensures forall s :: s in r <==> s in slots && s.doctor == doctor && s.date == date && s.start == start
    ensures forall s :: multiset(r)[s] ==
              if s.doctor == doctor && s.date == date && s.start == start then multiset(slots)[s] else 0
  {
    FilterCounts(slots, (s: TimeSlot) => s.doctor == doctor && s.date == date && s.start == start);
    Filter(slots, (s: TimeSlot) => s.doctor == doctor && s.date == date && s.start == start)
  }

  /** Some appointment on slot `slot` has status booked. */
  predicate HasBooked(appointments: seq<Appointment>, slot: nat) {
    exists a :: a in appointments && a.slot == slot && a.status.Booked?
  }

  /** Deleting a slot deletes the appointments on it (the foreign key
      cascades). */
  function DeleteSlot(db: Db, id: nat): (r: Db)
    ensures forall s :: s in r.slots <==> s in db.slots && s.id != id
    ensures forall a :: a in r.appointments <==> a in db.appointments && a.slot != id
    ensures r.users == db.users && r.availability == db.availability
    ensures r.notes == db.notes && r.medications == db.medications
    ensures r.prescriptions == db.prescriptions && r.billings == db.billings
  {
    db.(slots := Filter(db.slots, (s: TimeSlot) => s.id != id),
        appointments := Filter(db.appointments, (a: Appointment) => a.slot != id))
  }

  /** The cascade keeps the store well formed: no appointment is left
      pointing at the deleted slot. */
  lemma DeleteSlotKeepsWellFormed(db: Db, id: nat)
    requires WellFormed(db)
    ensures WellFormed(DeleteSlot(db, id))
  {
    var r := DeleteSlot(db, id);
    var ps := (s: TimeSlot) => s.id != id;
    var pa := (a: Appointment) => a.slot != id;
    forall i, j | 0 <= i < j < |r.slots|
      ensures r.slots[i].id < r.slots[j].id && !SameSlotKey(r.slots[i], r.slots[j])
    {
      FilterKeepsOrder(db.slots, ps, i, j);
    }
    forall i, j | 0 <= i < j < |r.appointments|
      ensures r.appointments[i].id < r.appointments[j].id
    {
      FilterKeepsOrder(db.appointments, pa, i, j);
    }
    forall i | 0 <= i < |r.slots|
      ensures r.slots[i].id < r.nextSlot
    {
      assert r.slots[i] in db.slots;
    }
    forall i | 0 <= i < |r.appointments|
      ensures r.appointments[i].id < r.nextAppointment
    {
      assert r.appointments[i] in db.appointments;
    }
    forall a | a in r.appointments
      ensures exists s :: s in r.slots && s.id == a.slot
    {
      var s :| s in db.slots && s.id == a.slot;
      assert s in r.slots;
    }
  }
}
